=== FILE: README.md ===
# pyvinci-server, modelled in Dafny

pyvinci-server is a small REST backend for a labelling tool. Users register and log
in, create projects, upload images to an S3 bucket, and start labelling jobs on a
project. This project models the request-handling rules of that server over an
abstract store. The store has the relational tables (users, tokens, projects, images,
jobs) and the S3 image bucket. The model proves properties of these rules.

The modules follow the Go packages:

- `ProjectHandlers` (handlers.dfy) models pkg/server/projects.go. The handlers are
  methods of a `Server` class that holds the database and the bucket. Every handler
  that takes a project runs the same ownership gate: parse the user and project ids,
  load the user, load the project, and answer 404 "project not found" when the project
  belongs to someone else. Only then does the handler read or change anything else.
  The file also holds the upload loop of `postProjectImage`, the object-then-row
  order of `deleteProjectImage` and the single-job rule of `startProjectJob`.
- `Views` (views.dfy) models `projectHTTPStruct` and `imageHTTPStruct`.
  `imageHTTPStruct` merges an image's two label lists through a set.
- `S3Keys` (s3_keys.dfy) models the key and URL builders. `strings.TrimPrefix`
  inverts `s3ImageURL`.
- `Middleware` (middleware.dfy) and `ServerSetup` (server.dfy) model the two
  different `errorHandler` chains, `jwtError`, `protected`, `handler`, `Recover`
  and the port choice of `Serve`.
- `Errors` (errors.dfy) models pkg/server/error.go.
- `Store` (store.dfy) holds the tables and the bucket, and the three gorm query
  shapes: first match, all matches, delete matches.
- `ProjectStore`, `ImageStore`, `JobStore`, `UserStore` and `TokenStore` model the
  queries of pkg/model.
- `HashGenerator` (hash_generator.dfy) models `generateUID`.
- `Database` (database.dfy) models `Transact`.
- `Auth` (auth.dfy) models `register`.
- `GoStrings` (gostrings.dfy) and `Uuids` (uuids.dfy) model the library calls these
  rely on.

Tables are sequences of rows in insertion order. That order stands in for the order the
database returns rows in, which the queries leave unspecified (see "Left out"). The
bucket is a map from key to object.

Every database or S3 call takes the error it reports as a parameter. `None` means
the call succeeded. A handler reads these errors, the ids the database generates and
the `uuid.NewV4()` values from an `Env`. Every error a store or S3 call reports is a
path of the model; the panic of `uuid.Must` when the random source fails is not (see
"Left out"). Inserts also fail with the driver's duplicate-key error when the
generated id is already taken.

A handler ends in one of four ways:

- `Respond`: it wrote a reply;
- `Fail`: it returned an error, which the error handler answers;
- `Silent`: it returned nil without a reply;
- `Panicked`: a run-time panic.

Where the code does something other than its comments and messages describe, the
model follows the code:

- `getProjectImage` and `deleteProjectImage` never check that the image belongs to
  the project in the path.
- The upload loop rolls nothing back when a file fails.
- `register` validates its input and then only prints the request. It stores no user
  and hashes no password.
- The message for a second job is "job already exists for this project".
- server.go's `errorHandler` has no record-not-found rule; middleware.go's has one.
  Both are modelled.

## Model

| member | source | states |
|---|---|---|
| `Errors.NewPublicError` | pkg/server/error.go:13-27 | the error is public, with exactly the given message and code; its `Error()` and `PublicError()` texts are both the message |
| `Errors.NewValidationError` | pkg/server/error.go:29-31 | a public error with code 400 and the given message |
| `Errors.NewNotFoundError` | pkg/server/error.go:33-35 | a public error with code 404 and the given message |
| `Errors.NewPublicErrorInjective` | pkg/server/error.go:13-15 | two constructed errors are equal exactly when message and code are both equal |
| `Errors.PublicError.Error` | pkg/server/error.go:17-19 | the text is the message the error was built with: the error is rebuilt from it and its code |
| `Errors.PublicError.Code` | pkg/server/error.go:21-23 | the code is the one the error was built with: the error is rebuilt from its message and it |
| `Errors.PublicError.PublicMessage` | pkg/server/error.go:25-27 | the text shown to the client is the error's `Error()` text, its message |
| `Errors.ErrorText` | pkg/server/error.go:17-19 | `err.Error()`: a public error's text is its public message; gorm's sentinel reads "record not found"; any other error reads as its own text |
| `GoStrings.TrimPrefix` | pkg/server/projects.go:527 | with the prefix present, prefix + result is the input; without it, the input is returned unchanged |
| `GoStrings.HasPrefix` | pkg/server/middleware.go:29 | true exactly when the text is the prefix followed by some text |
| `GoStrings.TrimPrefixOfConcat` | pkg/server/projects.go:596-598 | trimming a prefix that was just prepended gives back the original text |
| `Middleware.ErrorHandler` | pkg/server/middleware.go:15-68 | body-parser prefix gives 400 with the Content-Type message; otherwise the duplicate-key prefix gives 409 "record already exists"; the record-not-found sentinel gives 404 "record does not exist"; a public error gives its own code and message; any other error gives 500 "internal error"; the text of an error that is not public never reaches the client |
| `Middleware.PrefixRulesPrecedePublicErrors` | pkg/server/middleware.go:28-67 | the rules are tried in order: a public error whose message starts with a prefix is answered by that prefix rule, not with its own code |
| `Middleware.DuplicateKeyAnswered409` | pkg/server/middleware.go:37-44 | the driver error a store insert returns for a taken id or name is answered 409 "record already exists" |
| `Middleware.JwtError` | pkg/server/middleware.go:109-118 | exactly the text "Missing or malformed JWT" maps to a 400 validation error; every other JWT failure maps to 401 "invalid or expired JWT" |
| `Middleware.Protected` | pkg/server/middleware.go:89-107 | with auth disabled every request passes on; with it enabled a request passes exactly when its token is accepted, and a rejection is handed on as its `jwtError` mapping |
| `Middleware.RejectedTokenReply` | pkg/server/middleware.go:109-117 | a rejected token reaches the client as 400 "missing or malformed JWT" or 401 "invalid or expired JWT" |
| `ServerSetup.ErrorHandler` | pkg/server/server.go:72-117 | the two prefix rules, then public errors with their own code and message; every other error, record-not-found included, is masked as 500 "internal error" |
| `ServerSetup.ErrorHandlersDifferOnlyOnRecordNotFound` | pkg/server/server.go:72-117 | the two error handlers agree on every error except record-not-found, which middleware.go answers 404 and server.go answers 500 |
| `ServerSetup.Handler` | pkg/server/server.go:63-70 | the error is handed on exactly when the route function returns one, and it is that error |
| `ServerSetup.Recover` | pkg/server/server.go:121-136 | an error is handed on exactly when there was a panic: an error value as itself, any other value as an error whose text is its `%v` rendering |
| `ServerSetup.RecoveredPanicIsMasked` | pkg/server/server.go:121-136 | a panic with a non-error value whose text matches neither prefix reaches the client as a masked 500 |
| `ServerSetup.ServePort` | pkg/server/server.go:36-43 | the configured port when it is non-zero, 3000 otherwise; never 0 |
| `Auth.Register` | pkg/server/auth.go:10-35 | a body-parse error is handed on unchanged; an empty username or password gives the 400 "both username and password are required"; only a request with both fields is accepted, and it is accepted unchanged |
| `Auth.MissingCredentialsReply` | pkg/server/auth.go:28-31 | a request missing a credential reaches the client as a 400 with that message |
| `Database.Connection.Transact` | database/database.go:29-48 | a failed begin is returned and the function never runs; a function error rolls back and is returned; a panic rolls back and is raised again; otherwise the function's writes are committed exactly when the commit succeeds, and the commit's error is returned; a transaction is never both committed and rolled back |
| `Store.FirstMatch` | pkg/model/project.go:34 | `Take`: a row is found exactly when some row matches, and it is the first matching row in the model's insertion order |
| `Store.Filter` | pkg/model/project.go:26 | `Find`: every matching row, as often as in the table, and no other row |
| `Store.RemoveMatching` | pkg/model/project.go:41 | `Delete`: every non-matching row, as often as in the table, and no matching row |
| `ProjectStore.CreateProject` | pkg/model/project.go:20-22 | the project is appended under the generated id, unless the call fails or the id is already taken; otherwise the table is unchanged |
| `ProjectStore.AllProjectsForUser` | pkg/model/project.go:24-30 | exactly the projects whose owner is the user, with their multiplicities, or the query's error |
| `ProjectStore.FindProjectByID` | pkg/model/project.go:32-38 | a stored project with that id, found exactly when one exists; record-not-found when none does |
| `ProjectStore.DeleteProjectByID` | pkg/model/project.go:40-42 | removes the rows with that id and keeps the others, unless the call fails |
| `ProjectStore.Overwrite` | pkg/model/project.go:44-46 | gorm `Save` on a stored id: same length, the project is stored, it is the only value under its id, and every row with another id keeps its multiplicity |
| `ProjectStore.Saved` | pkg/model/project.go:44-46 | gorm `Save`: afterwards the project is stored and is the only value under its id; every row with another id keeps its multiplicity; the table grows by one exactly when the id was not stored |
| `ProjectStore.Update` | pkg/model/project.go:44-46 | the table becomes the saved table, unless the call fails |
| `ProjectStore.CreatedProjectIsFound` | pkg/model/project.go:20-38 | a project inserted under a fresh id is what a lookup by that id returns |
| `ProjectStore.DeletedProjectIsGone` | pkg/model/project.go:40-42 | after the delete the id is not found, and every other project keeps its multiplicity |
| `ProjectStore.SavedProjectIsFound` | pkg/model/project.go:44-46 | after a save, a lookup by the project's id returns the saved project |
| `ImageStore.CreateImage` | pkg/model/image.go:21-23 | the image is appended under the generated id, unless the call fails or the id is taken; other rows are unchanged |
| `ImageStore.AllImagesForProject` | pkg/model/image.go:25-31 | exactly the images of the project, with their multiplicities, or the query's error |
| `ImageStore.FindImageByID` | pkg/model/image.go:33-39 | a stored image with that id, found exactly when one exists; record-not-found when none does |
| `ImageStore.DeleteImageByID` | pkg/model/image.go:41-43 | removes the rows with that id and keeps the others, unless the call fails |
| `ImageStore.DeletedImageIsGone` | pkg/model/image.go:41-43 | after the delete the id is not found, and every other image keeps its multiplicity |
| `JobStore.CreateNewJob` | pkg/model/jobs.go:22-31 | on success the job has the given project and status PENDING_LABELS and is appended; on failure no job is returned, only the error, and the table is unchanged |
| `JobStore.FindJobForProject` | pkg/model/jobs.go:33-39 | a stored job of that project, found exactly when the project has one; record-not-found otherwise |
| `JobStore.CreatedJobIsFound` | pkg/model/jobs.go:22-39 | once a job is inserted for a project, the lookup for that project finds a job |
| `UserStore.CreateUser` | pkg/model/user.go:26-41 | the row stores the password exactly as passed; on success the generated id is written back into the caller's user; a taken id or username fails with a duplicate-key error and stores nothing |
| `UserStore.FindUserByUsername` | pkg/model/user.go:43-49 | a stored user with that name, found exactly when one exists; record-not-found otherwise |
| `UserStore.FindUserByID` | pkg/model/user.go:51-57 | a stored user with that id, found exactly when one exists; record-not-found otherwise |
| `UserStore.VerifyPassword` | pkg/model/user.go:59-72 | the boolean is true exactly when the error is nil; a store error or a missing row gives that error and false; otherwise the result is the comparison's error and its success, taken against the password column of the first row with the user's id, so a matching hash gives (nil, true) |
| `UserStore.CreatedUserIsFound` | pkg/model/user.go:26-57 | a user created under a fresh id and username is found both by id and by username |
| `UserStore.CreatedUserPasswordChecked` | pkg/model/user.go:59-72 | for a user just created with a stored password, the check compares against that stored value and accepts exactly when the comparison does |
| `TokenStore.Invalidated` | pkg/model/token.go:29-34 | the user's valid rows become invalid; every other row, including the user's invalid ones, is unchanged |
| `TokenStore.InvalidateAllTokens` | pkg/model/token.go:29-34 | the table becomes the invalidated table, unless the update fails |
| `TokenStore.CreateToken` | pkg/model/token.go:20-27 | exactly one valid row with the user and the token string is appended, and the other rows are unchanged, unless the insert fails |
| `TokenStore.InvalidateIdempotent` | pkg/model/token.go:29-34 | invalidating twice is the same as invalidating once |
| `TokenStore.InvalidatedHasNoValid` | pkg/model/token.go:31-32 | after invalidation the user has no valid row |
| `TokenStore.RotationLeavesOnlyNewTokenValid` | pkg/model/token.go:20-34 | invalidate-all followed by create leaves the user exactly one valid row, the new one, holding the issued token |
| `TokenStore.RotationPreservesInvariant` | pkg/model/token.go:20-34 | if no user had two valid rows before the rotation, none has after it |
| `HashGenerator.MaskAndShift` | pkg/model/hash_generator.go:26-30 | on a 64-bit cache value, masking with `letterIdxMask` is the remainder modulo 64 and shifting by `letterIdxBits` is the quotient by 64 |
| `HashGenerator.ChunkLetters` | pkg/model/hash_generator.go:26-31 | a draw's chunks supply at most as many letters as chunks are read |
| `HashGenerator.Letters` | pkg/model/hash_generator.go:15 | the draws supply at most 10 letters each |
| `HashGenerator.Kept` | pkg/model/hash_generator.go:26-29 | a chunk supplies a letter exactly when its low six bits are below 52, and then it is the letter they index |
| `HashGenerator.GenerateUID` | pkg/model/hash_generator.go:18-35 | the identifier is the first 16 letters the draws supply, lowest chunks first; it exists exactly when the draws supply 16 letters; it has exactly 16 characters, all from `letterBytes` |
| `HashGenerator.LowestBitsFirst` | pkg/model/hash_generator.go:22-27 | the first letter is the one the lowest six bits of the first draw select |
| `HashGenerator.RejectedChunkSkipped` | pkg/model/hash_generator.go:26-31 | a chunk whose index is 52 or more adds no letter |
| `HashGenerator.ChunkLettersInAlphabet` | pkg/model/hash_generator.go:12 | every letter a chunk supplies is in `letterBytes` |
| `HashGenerator.LettersInAlphabet` | pkg/model/hash_generator.go:26-27 | every letter the draws supply is in `letterBytes` |
| `Uuids.FromString` | pkg/server/projects.go:156-159 | a text parses exactly when it is well-formed, into a canonical UUID that is its lower-cased copy |
| `Uuids.Uuid.String` | pkg/server/projects.go:43 | the text determines the UUID, and a canonical UUID's text parses back to it |
| `Uuids.FromStringOfString` | pkg/server/projects.go:43 | parsing a canonical UUID's text gives back the same UUID |
| `S3Keys.S3BucketURL` | pkg/server/projects.go:592-594 | the URL is `https://`, the bucket name, then `.s3.amazonaws.com/` |
| `S3Keys.S3BucketURLInjective` | pkg/server/projects.go:592-594 | different buckets have different base URLs |
| `S3Keys.S3ImageURL` | pkg/server/projects.go:596-598 | the URL starts with the bucket URL, and stripping that prefix gives back the key |
| `S3Keys.S3ImageKey` | pkg/server/projects.go:600-602 | the key reads back as `users/{user}/projects/{project}/{name}` with the same three parts |
| `S3Keys.ObjectName` | pkg/server/projects.go:335 | the name reads back as the UUID's text, an underscore and the file name |
| `S3Keys.DistinctUploadKeys` | pkg/server/projects.go:332-336 | two uploads under different canonical random UUIDs never share a key, whatever the user, project and file names |
| `S3Keys.UploadedKeyRecovered` | pkg/server/projects.go:525-528 | the key `deleteProjectImage` strips out of an uploaded image's URL is the key the image was uploaded under |
| `Views.ProjectHTTPStruct` | pkg/server/projects.go:41-50 | the view has no labels and an unset status |
| `Views.ProjectViewDeterminesRow` | pkg/server/projects.go:41-50 | two projects with the same view are the same project |
| `Views.ProjectHTTPStructs` | pkg/server/projects.go:136-142 | one view per project, in list order |
| `Views.AddAll` | pkg/server/projects.go:54-58 | the set grows by exactly the elements of the list |
| `Views.Members` | pkg/server/projects.go:61-64 | the list holds exactly the set's members, each once |
| `Views.ImageHTTPStruct` | pkg/server/projects.go:52-74 | the view carries the image's id, URL and project, and its labels are exactly the union of the two label lists, without repeats |
| `Views.ImageHTTPStructs` | pkg/server/projects.go:432-435 | one view per image, in list order, each showing its image |
| `ProjectHandlers.ParseId` | pkg/server/projects.go:156-159 | a path id parses exactly when `uuid.FromString` accepts it; otherwise the 400 with the given message |
| `ProjectHandlers.Ids` | pkg/server/projects.go:151-159 | a malformed user id gives 400 "valid user_id is required" before the project id is read; then a malformed project id gives 400 "valid project_id is required"; both parse errors are 400s |
| `ProjectHandlers.Gate` | pkg/server/projects.go:151-173 | parse errors come first; a project owned by someone else gives 404 "project not found"; a project let through is stored, has the path's id and is owned by the path's user |
| `ProjectHandlers.GateDecidesByOwner` | pkg/server/projects.go:166-173 | with unique project ids and no store errors, the path's project is let through exactly when the path's user owns it, and refused with 404 "project not found" otherwise |
| `ProjectHandlers.UploadKey` | pkg/server/projects.go:332-336 | the key of the i-th file reads back as the project's owner, the project and `{uuid}_{filename}` with the i-th random UUID |
| `ProjectHandlers.UploadRow` | pkg/server/projects.go:363-367 | the row has the generated id, the project's id, no labels, and a URL that starts with the bucket URL and strips back to the file's key, so it is the bucket URL followed by the key |
| `ProjectHandlers.UploadRows` | pkg/server/projects.go:363-370 | one row per file, in file order: the i-th has the i-th generated id, the project's id, no labels, and a URL that is the bucket URL followed by the i-th file's key |
| `ProjectHandlers.FileObject` | pkg/server/projects.go:337-344 | the object `PutObject` writes holds the file's bytes under its first Content-Type, public-read and no-cache |
| `ProjectHandlers.UploadKeysDistinct` | pkg/server/projects.go:332-336 | with fresh random UUIDs, two different files of the loop are stored under different keys |
| `ProjectHandlers.StoredByUpload` | pkg/server/projects.go:337-344 | writing a file's object stores it under its key while every earlier file keeps its own object |
| `ProjectHandlers.FileFailure` | pkg/server/projects.go:315-369 | a file ends the request with an error or a panic; it panics exactly when it has no Content-Type header |
| `ProjectHandlers.ListedProjectViews` | pkg/server/projects.go:131-142 | every listed view belongs to the user, and every project of the user is listed |
| `ProjectHandlers.ListedImageViews` | pkg/server/projects.go:427-435 | every listed view belongs to the project, and every image of the project is shown |
| `ProjectHandlers.Server.CreateProject` | pkg/server/projects.go:76-112 | the new project is owned by the path's user, never by a body field; the user id is parsed before the body; 201 with the project exactly when the user exists and the insert succeeds; on any error the table is unchanged |
| `ProjectHandlers.Server.GetProjects` | pkg/server/projects.go:117-145 | on success, one view per listed project in the model's insertion order; every view belongs to the user, and every project of the user is shown |
| `ProjectHandlers.Server.GetProject` | pkg/server/projects.go:147-190 | behind the gate, the project's view with its job's status when it has one; a missing job leaves the status unset; any other job-lookup error is returned |
| `ProjectHandlers.Server.DeleteProject` | pkg/server/projects.go:192-223 | behind the gate, the owner's project is gone afterwards and every other row keeps its multiplicity; a refused or failed request changes nothing |
| `ProjectHandlers.Server.UpdateProject` | pkg/server/projects.go:225-270 | ids, then body, then the gate; the saved project is the stored one with only its keywords replaced, so id, owner and name are kept; a later lookup finds it; on any error the table is unchanged |
| `ProjectHandlers.Server.UploadFile` | pkg/server/projects.go:315-370 | one file: the object is written under its key exactly when the header, open and put succeed, and it holds the file's bytes under its first Content-Type, public-read and no-cache; the row is recorded only when every step succeeds |
| `ProjectHandlers.Server.UploadStep` | pkg/server/projects.go:315-371 | one pass keeps the loop invariant, or ends with this file's failure while the earlier files stay uploaded and recorded; every recorded file's key holds a public object, its own bytes and Content-Type when the random UUIDs are fresh |
| `ProjectHandlers.Server.UploadLoop` | pkg/server/projects.go:314-371 | the files are uploaded in order until the first failure; the files before it stay uploaded and recorded, each key holding that file's bytes and Content-Type when the random UUIDs are fresh; the files after it are not touched |
| `ProjectHandlers.Server.UploadFiles` | pkg/server/projects.go:314-378 | 201 with one view per file, in file order, exactly when every file went through; otherwise the first failing file's error, with the earlier rows and objects kept; each recorded file's key holds its bytes and Content-Type when the random UUIDs are fresh |
| `ProjectHandlers.Server.PostProjectImage` | pkg/server/projects.go:272-379 | behind the gate, the S3 session and the form, the upload runs; a refused request changes nothing; the rows are appended in file order; each recorded file's key holds a public object, which is the file's bytes under its Content-Type when the random UUIDs are fresh; the bucket only changes at the keys of files met; nothing is rolled back |
| `ProjectHandlers.Server.GetProjectImages` | pkg/server/projects.go:398-439 | behind the gate, the project's images shown in the model's insertion order; every view belongs to the project and every image of it is shown; a failed listing ends with no reply |
| `ProjectHandlers.Server.GetProjectImage` | pkg/server/projects.go:441-482 | ids, then image id, then the gate; the image with the path's id is shown, with no check that it belongs to the project |
| `ProjectHandlers.Server.DeleteProjectImage` | pkg/server/projects.go:484-539 | behind the gate, the object is deleted first and the row after it, so the row changes only when the session and the object delete succeeded; a missing image ends with no reply; the key is the URL with the bucket URL stripped |
| `ProjectHandlers.Server.StartProjectJob` | pkg/server/projects.go:541-590 | behind the gate, an existing job gives 400 "job already exists for this project" and nothing is created; otherwise a PENDING_LABELS job is created and answered with 201, after which the project has a job; a failed insert ends with no reply |

## Left out

- The S3 SDK: creating the session, `PutObject` and `DeleteObject`. The bucket is a map, and each call's error is a parameter. The ACL, content type and cache-control of a stored object are kept as fields of the object.
- Multipart parsing, opening and closing a file part, and fiber's context, JSON encoding and status writes. The form is a parameter (its files or its error), and a reply is an `Outcome` value.
- `getUserID` is not part of this model. The user id is parsed from the path parameter like the project id.
- `login`: it is routed in server.go but has no definition.
- SQL semantics of gorm. Each query is modelled by its `Where` condition over the rows.
- bcrypt and JWT signing and expiry. `VerifyPassword` takes the hash comparison as a function parameter, and `Protected` takes the JWT middleware's verdict as a parameter.
- `uuid.NewV4`, `time.Now` and the `CreatedAt`/`UpdatedAt` columns. Generated ids are parameters; timestamps are not modelled.
- `uuid.Must(uuid.NewV4())` in the upload loop panics when the random source fails. The model draws each file's UUID from `Env.keyUuid`, which never fails, so that panic is not a path of the model.
- `ProjectHandlers.Server.UploadStep`: promises that each recorded file's key holds that file's own bytes and Content-Type only when the files' random UUIDs are canonical and pairwise different (`FreshKeyUuids`), as `uuid.NewV4` draws them. Without that, two files may share a key and the later object is kept; only a public, no-cache object under each key is promised.
- `ProjectHandlers.Server.UploadLoop`: the same condition on the random UUIDs, for the objects under the recorded keys.
- `ProjectHandlers.Server.UploadFiles`: the same condition on the random UUIDs, for the objects under the recorded keys.
- `ProjectHandlers.Server.PostProjectImage`: the same condition on the random UUIDs, for the objects under the recorded keys.
- Logging through zap and the prints of `register`, `Recover` and `jwtError`.
- Configuration loading, the command line, `database.Open` and the route tables. server.go registers only the auth routes, and the project routes are not modelled as routes.
- Concurrency: the model is sequential.
- `Store.FirstMatch`: gorm's `Take` without ORDER BY returns a matching row the database chooses. The model returns the first in insertion order. Every `Take` in the handlers queries a unique column or a project's single job, so the row is the same either way.
- `Store.Filter`: gorm's `Find` without ORDER BY returns the rows in an order the database chooses. The model keeps insertion order, so the order is the model's, not the program's; the rows and their multiplicities are the program's.
- `ProjectHandlers.Server.GetProjects`: the reply lists the user's projects in the model's insertion order. The program lists them in the order Postgres returns them, which an update can change.
- `ProjectHandlers.Server.GetProjectImages`: the reply lists the project's images in the model's insertion order, not in the order the database returns them.
- `Views.Members`: the label order that Go's map iteration gives is not modelled. The labels are listed in an order the model chooses, and only their set and the absence of repeats are stated.
- The duplicate `errorHandler` and `Recover` definitions and the signature mismatch of `handler(s.register)` keep the Go tree from compiling. Both error handlers are modelled; `Recover`, identical in the two files, is modelled once.
- `Uuids.FromString`: only the 36-character hyphenated spelling is parsed. `uuid.FromString` also accepts the braced, `urn:uuid:` and 32-digit spellings.
- `HashGenerator.GenerateUID`: the random source is a finite sequence of `Int63()` values. When it runs out before 16 letters are written, the model returns no identifier; the source's endless source never runs out.
- After a failed `PutObject` the source closes the file and only logs a close error. The model returns the `PutObject` error and ignores the close outcome, as the source does.

=== FILE: auth.dfy ===
/**
 * pkg/server/auth.go: `register`, the only validation on the authentication path. It
 * parses the body, insists on a non-empty username and password, and then only prints
 * the request: it has no database handle in scope and writes nothing.
 */
module Auth {
  import opened Wrappers
  import opened Errors
  import opened Middleware

  datatype RegisterRequest = RegisterRequest(username: string, password: string)

  /** How `register` ends: handing an error on, or printing the accepted request. */
  datatype RegisterOutcome = Forward(err: Error) | Printed(request: RegisterRequest)

  const CredentialsRequired := "both username and password are required"

  /** `register`, given the outcome of `c.BodyParser`. */
  function Register(body: Result<RegisterRequest, Error>): (o: RegisterOutcome)
    ensures body.Err? ==> o == Forward(body.error)
    ensures body.Ok? ==> (o.Forward? <==> body.value.username == "" || body.value.password == "")
    ensures body.Ok? && o.Forward? ==> o.err == NewValidationError(CredentialsRequired)
    ensures o.Printed? ==> body.Ok? && o.request == body.value
  {
    match body
    case Err(e) => Forward(e)
    case Ok(req) =>
      if req.username == "" || req.password == "" then Forward(NewValidationError(CredentialsRequired))
      else Printed(req)
  }

  /** A request missing either credential is answered 400 with the fixed message. */
  lemma MissingCredentialsReply(req: RegisterRequest)
    requires req.username == "" || req.password == ""
    ensures Register(Ok(req)).Forward?
    ensures ErrorHandler(Register(Ok(req)).err) == ErrResponse(400, CredentialsRequired)
  {
    assert CredentialsRequired[2] == 't' && BodyParsePrefix[2] == 'd';
    GoStrings.NotPrefixAt(CredentialsRequired, BodyParsePrefix, 2);
    assert DuplicateKeyPrefix[0] == 'p';
  }
}

=== FILE: database.dfy ===
/**
 * database/database.go: `Transact`, which runs a function inside a transaction and ends
 * the transaction with a commit or a rollback. The database is a connection holding the
 * committed state; the function is given as the state it leaves the transaction in and
 * the way it ends (an error return, a nil return, or a panic).
 */
module Database {
  import opened Wrappers
  import opened Errors
  import opened ServerSetup

  /** The calls `Transact` makes, in order. */
  datatype TxEvent = Begin | CallBody | Rollback | Commit

  /** How the transaction's function ends. */
  datatype BodyEnd = Returned(err: Option<Error>) | Panicked(value: PanicValue)

  /** How `Transact` itself ends: returning an error (or nil), or re-raising a panic. */
  datatype TransactEnd = Return(err: Option<Error>) | Repanic(value: PanicValue)

  class Connection<S> {
    /** The committed state, what every later transaction sees. */
    var committed: S
    /** The transaction calls made on this connection so far. */
    var events: seq<TxEvent>

    constructor (initial: S)
      ensures committed == initial && events == []
    {
      committed := initial;
      events := [];
    }

    /**
     * `Transact`: a failed begin is returned and the function is never called; a
     * function error rolls back and is returned; a panic rolls back and is raised again;
     * otherwise the work is committed and the commit's error is returned. Only a commit
     * that succeeds makes the function's writes visible.
     */
    method Transact(beginErr: Option<Error>, body: S -> (S, BodyEnd), commitErr: Option<Error>)
      returns (result: TransactEnd)
      modifies this
      ensures beginErr.Some? ==>
        result == Return(beginErr) && events == old(events) + [Begin] && committed == old(committed)
      ensures beginErr.None? && body(old(committed)).1.Returned? && body(old(committed)).1.err.Some? ==>
        result == Return(body(old(committed)).1.err) &&
        events == old(events) + [Begin, CallBody, Rollback] && committed == old(committed)
      ensures beginErr.None? && body(old(committed)).1.Panicked? ==>
        result == Repanic(body(old(committed)).1.value) &&
        events == old(events) + [Begin, CallBody, Rollback] && committed == old(committed)
      ensures beginErr.None? && body(old(committed)).1 == Returned(None) ==>
        result == Return(commitErr) && events == old(events) + [Begin, CallBody, Commit] &&
        committed == (if commitErr.None? then body(old(committed)).0 else old(committed))
      // a transaction is never both committed and rolled back
      ensures !(Commit in events[|old(events)|..] && Rollback in events[|old(events)|..])
    {
      events := events + [Begin];
      if beginErr.Some? {
        return Return(beginErr);
      }
      var work := committed;
      events := events + [CallBody];
      var (after, end) := body(work);
      match end {
        case Panicked(value) =>
          // the deferred recover rolls back, then panics again
          events := events + [Rollback];
          result := Repanic(value);
        case Returned(Some(err)) =>
          events := events + [Rollback];
          result := Return(Some(err));
        case Returned(None) =>
          events := events + [Commit];
          if commitErr.None? {
            committed := after;
          }
          result := Return(commitErr);
      }
    }
  }
}

=== FILE: errors.dfy ===
/**
 * Error values seen by the handlers and the error handler: the `publicError` type of
 * pkg/server/error.go, gorm's `ErrRecordNotFound` sentinel, and every other error
 * (driver, S3, body parser, ...) carried by its `Error()` text.
 */
module Errors {

  /** `publicError{msg, code}`: an error whose message may be shown to the client. */
  datatype PublicError = PublicError(msg: string, code: int) {
    /** `Error()`: the message the error was built with. */
    function Error(): (s: string)
      ensures PublicError(s, code) == this
    {
      msg
    }
    /** `Code()`: the status code the error was built with. */
    function Code(): (c: int)
      ensures PublicError(msg, c) == this
    {
      code
    }
    /** `PublicError()`: the text shown to the client is the error's own `Error()` text. */
    function PublicMessage(): (s: string)
      ensures s == msg && PublicError(s, Code()) == this
    {
      Error()
    }
  }

  datatype Error =
    | Public(pe: PublicError)   // a value of the unexported publicError type
    | RecordNotFound            // gorm.ErrRecordNotFound
    | Failure(text: string)     // any other error value, known by its Error() text

  const RecordNotFoundText := "record not found"
  /**
   * The leading text of the Postgres driver's error for a broken unique constraint.
   * It is written as two literals because the verifier does not see the characters of a
   * single string literal this long.
   */
  const DuplicateKeyPrefix := "pq: duplicate key value " + "violates unique constraint"

  /**
   * `err.Error()`: a public error's text is the message it shows the client, gorm's
   * sentinel reads "record not found", any other error its own text.
   */
  function ErrorText(e: Error): (t: string)
    ensures e.Public? ==> t == e.pe.PublicMessage()
    ensures e.RecordNotFound? ==> t == RecordNotFoundText
    ensures e.Failure? ==> t == e.text
  {
    match e
    case Public(pe) => pe.Error()
    case RecordNotFound => RecordNotFoundText
    case Failure(t) => t
  }

  /** `newPublicError(msg, code)`. */
  function NewPublicError(msg: string, code: int): (e: Error)
    ensures e.Public? && e.pe.PublicMessage() == msg && e.pe.Code() == code && ErrorText(e) == msg
  {
    Public(PublicError(msg, code))
  }

  /** `newValidationError(msg)`: a public error with status 400. */
  function NewValidationError(msg: string): (e: Error)
    ensures e.Public? && e.pe.Code() == 400 && e.pe.PublicMessage() == msg && ErrorText(e) == msg
  {
    NewPublicError(msg, 400)
  }

  /** `newNotFoundError(msg)`: a public error with status 404. */
  function NewNotFoundError(msg: string): (e: Error)
    ensures e.Public? && e.pe.Code() == 404 && e.pe.PublicMessage() == msg && ErrorText(e) == msg
  {
    NewPublicError(msg, 404)
  }

  /** Two public errors built by the constructor are equal exactly when message and code are. */
  lemma NewPublicErrorInjective(m1: string, c1: int, m2: string, c2: int)
    ensures NewPublicError(m1, c1) == NewPublicError(m2, c2) <==> m1 == m2 && c1 == c2
  {
    var e1, e2 := NewPublicError(m1, c1), NewPublicError(m2, c2);
    if e1 == e2 {
      assert e1.pe.PublicMessage() == e2.pe.PublicMessage();
    }
  }
}

=== FILE: gostrings.dfy ===
/** The two functions of Go's `strings` package that the core relies on. */
module GoStrings {

  /** `strings.HasPrefix(s, prefix)`: `s` is `prefix` followed by some text. */
  predicate HasPrefix(s: string, prefix: string): (b: bool)
    ensures b <==> exists rest :: prefix + rest == s
  {
    assert |prefix| <= |s| && s[..|prefix|] == prefix ==> prefix + s[|prefix|..] == s;
    assert forall rest :: prefix + rest == s ==> (prefix + rest)[..|prefix|] == prefix;
    |prefix| <= |s| && s[..|prefix|] == prefix
  }

  /** `strings.TrimPrefix(s, prefix)`: drops one leading copy of `prefix`, if there is one. */
  function TrimPrefix(s: string, prefix: string): (r: string)
    ensures HasPrefix(s, prefix) ==> prefix + r == s
    ensures !HasPrefix(s, prefix) ==> r == s
  {
    if HasPrefix(s, prefix) then s[|prefix|..] else s
  }

  /** Trimming a prefix that was just prepended gives back the original text. */
  lemma TrimPrefixOfConcat(prefix: string, s: string)
    ensures TrimPrefix(prefix + s, prefix) == s
  {
    assert (prefix + s)[..|prefix|] == prefix;
    assert (prefix + s)[|prefix|..] == s;
  }

  /** A text that differs from `prefix` at some offset inside both does not start with it. */
  lemma NotPrefixAt(s: string, prefix: string, k: nat)
    requires k < |s| && k < |prefix| && s[k] != prefix[k]
    ensures !HasPrefix(s, prefix)
  {
  }
}

=== FILE: handlers.dfy ===
/**
 * pkg/server/projects.go: the project and image handlers. Every handler that takes a
 * project parses the ids from the path, loads the user, loads the project and answers
 * 404 "project not found" when the project belongs to someone else, before it reads or
 * changes anything else. The database, the S3 bucket and the random UUIDs are reached
 * through an `Env`: for each call a handler makes, the error that call reports (if
 * any) and the identifier it generates.
 */
module ProjectHandlers {
  import opened Wrappers
  import opened Uuids
  import opened Errors
  import opened Store
  import opened Views
  import opened S3Keys
  import opened GoStrings
  import ProjectStore
  import ImageStore
  import JobStore
  import UserStore
  import ServerSetup

  /** The store and S3 calls a handler makes; the upload calls carry the file's position. */
  datatype Call =
    | FindUser | FindProject | FindImage | FindJob | ListProjects | ListImages
    | InsertProject | SaveProject | DeleteProjectRow | DeleteImageRow | InsertJob
    | S3Session | DeleteObject
    | OpenFile(i: nat) | PutObject(i: nat) | CloseFile(i: nat) | InsertImage(i: nat)

  /**
   * The outside world as seen by one request: the error each call reports, the id the
   * database generates for each insert, and the `uuid.NewV4()` drawn for the i-th file.
   */
  datatype Env = Env(fault: Call -> Option<Error>, newId: Call -> Uuid, keyUuid: nat -> Uuid)

  datatype CreateRequest = CreateRequest(name: string, keywords: seq<string>)
  datatype UpdateRequest = UpdateRequest(keywords: seq<string>)

  /** A part of the multipart form under "images": file name, Content-Type header values, bytes. */
  datatype FilePart = FilePart(filename: string, contentTypes: seq<string>, content: seq<bv8>)

  datatype Body =
    | Empty
    | ProjectBody(project: ProjectView)
    | ProjectsBody(projects: seq<ProjectView>)
    | ImageBody(image: ImageView)
    | ImagesBody(images: seq<ImageView>)
    | JobBody(jobId: string, status: string)

  /**
   * How a handler ends: a reply it writes, an error it returns (answered by the error
   * handler), a nil return without a reply, or a run-time panic.
   */
  datatype Outcome =
    | Respond(status: int, body: Body)
    | Fail(err: Error)
    | Silent
    | Panicked(value: ServerSetup.PanicValue)

  const UserIdRequired := "valid user_id is required"
  const ProjectIdRequired := "valid project_id is required"
  const ImageIdRequired := "valid image_id is required"
  const ProjectNotFound := "project not found"
  const JobAlreadyExists := "job already exists for this project"
  const NoCache := "no-cache"
  /** The run-time error of `fileHeader.Header["Content-Type"][0]` on an empty list. */
  const IndexOutOfRange := "runtime error: index out of range [0] with length 0"

  /** `uuid.Nil`: the id of a row not yet inserted. */
  const NilUuid := Uuid("00000000-0000-0000-0000-000000000000")

  /** A path id, or the validation error the handler answers a malformed one with. */
  function ParseId(param: string, required: string): (r: Result<Uuid, Error>)
    ensures r.Ok? <==> FromString(param).Some?
    ensures r.Ok? ==> r.value == FromString(param).value && Canonical(r.value.text)
    ensures r.Err? ==> r.error == NewValidationError(required)
  {
    match FromString(param)
    case Some(id) => Ok(id)
    case None => Err(NewValidationError(required))
  }

  /** The user id, then the project id, each parsed before anything is looked up. */
  function Ids(userParam: string, projectParam: string): (r: Result<(Uuid, Uuid), Error>)
    ensures r.Err? ==> r.error.Public? && r.error.pe.Code() == 400
    ensures FromString(userParam).None? ==> r == Err(NewValidationError(UserIdRequired))
    ensures FromString(userParam).Some? && FromString(projectParam).None? ==>
      r == Err(NewValidationError(ProjectIdRequired))
    ensures r.Ok? <==> FromString(userParam).Some? && FromString(projectParam).Some?
    ensures r.Ok? ==> r.value == (FromString(userParam).value, FromString(projectParam).value)
  {
    match ParseId(userParam, UserIdRequired)
    case Err(e) => Err(e)
    case Ok(userId) =>
      match ParseId(projectParam, ProjectIdRequired)
      case Err(e) => Err(e)
      case Ok(projectId) => Ok((userId, projectId))
  }

  /** The path names an existing user and an existing project owned by someone else. */
  predicate Foreign(users: seq<UserRecord>, projects: seq<Project>, userParam: string, projectParam: string, env: Env) {
    var ids := Ids(userParam, projectParam);
    ids.Ok? &&
    UserStore.FindUserByID(users, ids.value.0, env.fault(FindUser)).Ok? &&
    var found := ProjectStore.FindProjectByID(projects, ids.value.1, env.fault(FindProject));
    found.Ok? && found.value.userId != ids.value.0
  }

  /**
   * The gate every project handler runs: parse both ids, load the user, load the
   * project, and refuse a project whose owner is not the user. A project it lets
   * through is a stored project with the path's id, owned by the path's user.
   */
  function Gate(users: seq<UserRecord>, projects: seq<Project>, userParam: string, projectParam: string, env: Env)
    : (r: Result<Project, Error>)
    ensures Ids(userParam, projectParam).Err? ==> r == Err(Ids(userParam, projectParam).error)
    ensures Foreign(users, projects, userParam, projectParam, env) ==> r == Err(NewNotFoundError(ProjectNotFound))
    ensures r.Ok? ==> (r.value in projects && UserStore.HasUserId(users, r.value.userId) &&
                       FromString(userParam) == Some(r.value.userId) && FromString(projectParam) == Some(r.value.id))
  {
    match Ids(userParam, projectParam)
    case Err(e) => Err(e)
    case Ok((userId, projectId)) =>
      match UserStore.FindUserByID(users, userId, env.fault(FindUser))
      case Err(e) => Err(e)
      case Ok(user) =>
        match ProjectStore.FindProjectByID(projects, projectId, env.fault(FindProject))
        case Err(e) => Err(e)
        case Ok(project) =>
          if project.userId != user.id then Err(NewNotFoundError(ProjectNotFound)) else Ok(project)
  }

  /**
   * With project ids unique and no store errors, the gate decides by ownership alone:
   * the stored project named in the path is let through when the path's user owns it,
   * and refused with 404 "project not found" when someone else does.
   */
  lemma {:induction false} GateDecidesByOwner(users: seq<UserRecord>, projects: seq<Project>, userParam: string,
                                              projectParam: string, env: Env, p: Project)
    requires FromString(userParam).Some? && FromString(projectParam) == Some(p.id)
    requires env.fault(FindUser).None? && env.fault(FindProject).None?
    requires UserStore.HasUserId(users, FromString(userParam).value)
    requires p in projects && forall q | q in projects && q.id == p.id :: q == p
    ensures Gate(users, projects, userParam, projectParam, env) ==
      if p.userId == FromString(userParam).value then Ok(p) else Err(NewNotFoundError(ProjectNotFound))
  {
    var k :| 0 <= k < |projects| && projects[k] == p;
    assert ProjectStore.HasProjectId(projects, p.id);
    var found := ProjectStore.FindProjectByID(projects, p.id, None);
    assert found.Ok? && found.value == p;
  }

  /**
   * The key the i-th uploaded file is stored under: it reads back as the project's
   * owner, the project and the object name built from the file's random UUID.
   */
  function UploadKey(project: Project, env: Env, i: nat, f: FilePart): (key: string)
    ensures Canonical(project.userId.text) && Canonical(project.id.text) ==>
      ParseImageKey(key) == Some((project.userId, project.id, ObjectName(env.keyUuid(i), f.filename)))
  {
    S3ImageKey(project.userId, project.id, ObjectName(env.keyUuid(i), f.filename))
  }

  /**
   * The row recorded for the i-th uploaded file: the generated id, the project, no
   * labels, and the public URL, the bucket URL followed by the key, from which
   * `deleteProjectImage` recovers the key.
   */
  function UploadRow(bucketName: string, project: Project, env: Env, i: nat, f: FilePart): (row: Image)
    ensures row.id == env.newId(InsertImage(i)) && row.projectId == project.id
    ensures HasPrefix(row.url, S3BucketURL(bucketName))
    ensures TrimPrefix(row.url, S3BucketURL(bucketName)) == UploadKey(project, env, i, f)
    ensures row.labelsStuff == [] && row.masksLabels == []
  {
    Image(env.newId(InsertImage(i)), project.id, S3ImageURL(bucketName, UploadKey(project, env, i, f)), [], [])
  }

  /**
   * The rows recorded for the first `k` files, in file order: row `i` has the id
   * generated for the i-th insert, belongs to the project and points at the i-th key.
   */
  function UploadRows(bucketName: string, project: Project, env: Env, files: seq<FilePart>, k: nat): (rows: seq<Image>)
    requires k <= |files|
    ensures |rows| == k
    ensures forall i {:trigger rows[i]} | 0 <= i < k ::
      rows[i].id == env.newId(InsertImage(i)) && rows[i].projectId == project.id &&
      HasPrefix(rows[i].url, S3BucketURL(bucketName)) &&
      TrimPrefix(rows[i].url, S3BucketURL(bucketName)) == UploadKey(project, env, i, files[i]) &&
      rows[i].labelsStuff == [] && rows[i].masksLabels == []
  {
    seq(k, i requires 0 <= i < k => UploadRow(bucketName, project, env, i, files[i]))
  }

  lemma UploadRowsStep(bucketName: string, project: Project, env: Env, files: seq<FilePart>, k: nat)
    requires k < |files|
    ensures UploadRows(bucketName, project, env, files, k + 1) ==
            UploadRows(bucketName, project, env, files, k) + [UploadRow(bucketName, project, env, k, files[k])]
  {
  }

  /**
   * How the upload of the i-th file ends the request, if it does, given the image rows
   * stored so far: a panic on a part without a Content-Type header, then the errors of
   * opening the file, of `PutObject`, of closing the file and of the insert.
   */
  function FileFailure(env: Env, i: nat, f: FilePart, rows: seq<Image>): (r: Option<Outcome>)
    ensures r.Some? ==> r.value.Fail? || r.value.Panicked?
    ensures r.Some? && r.value.Panicked? <==> f.contentTypes == []
  {
    if f.contentTypes == [] then Some(Panicked(ServerSetup.ErrorValue(Failure(IndexOutOfRange))))
    else if env.fault(OpenFile(i)).Some? then Some(Fail(env.fault(OpenFile(i)).value))
    else if env.fault(PutObject(i)).Some? then Some(Fail(env.fault(PutObject(i)).value))
    else if env.fault(CloseFile(i)).Some? then Some(Fail(env.fault(CloseFile(i)).value))
    else if env.fault(InsertImage(i)).Some? then Some(Fail(env.fault(InsertImage(i)).value))
    else if ImageStore.HasImageId(rows, env.newId(InsertImage(i))) then Some(Fail(DuplicateKeyError("image_pkey")))
    else None
  }

  /** None of the first `n` files ends the request, given the image rows `start` stored before them. */
  predicate UploadsSucceed(bucketName: string, project: Project, env: Env, files: seq<FilePart>, start: seq<Image>, n: nat)
    requires n <= |files|
  {
    forall k | 0 <= k < n :: Succeeds(bucketName, project, env, files, start, k)
  }

  /** File `k` does not end the request, after the files before it went through. */
  predicate Succeeds(bucketName: string, project: Project, env: Env, files: seq<FilePart>, start: seq<Image>, k: nat)
    requires k < |files|
  {
    FileFailure(env, k, files[k], start + UploadRows(bucketName, project, env, files, k)).None?
  }

  /** One more file that goes through extends the run of successful uploads. */
  lemma UploadsSucceedStep(bucketName: string, project: Project, env: Env, files: seq<FilePart>, start: seq<Image>, n: nat)
    requires n < |files| && UploadsSucceed(bucketName, project, env, files, start, n)
    requires FileFailure(env, n, files[n], start + UploadRows(bucketName, project, env, files, n)).None?
    ensures UploadsSucceed(bucketName, project, env, files, start, n + 1)
  {
  }

  /** An object as `postProjectImage` writes it: public-read and not to be cached. */
  predicate PublicImage(b: Blob) {
    b.publicRead && b.cacheControl == NoCache
  }

  /** The keys of the first `n` files. */
  function UploadKeys(project: Project, env: Env, files: seq<FilePart>, n: nat): (keys: set<string>)
    requires n <= |files|
    ensures forall k {:trigger UploadKey(project, env, k, files[k])} | 0 <= k < n :: UploadKey(project, env, k, files[k]) in keys
  {
    set k | 0 <= k < n :: UploadKey(project, env, k, files[k])
  }

  /**
   * The bucket only grew from `before` to `after`, and every object written or
   * overwritten has one of `keys`.
   */
  predicate Grown(before: map<string, Blob>, after: map<string, Blob>, keys: set<string>) {
    before.Keys <= after.Keys &&
    forall key {:trigger after[key]} | key in after && (key !in before || after[key] != before[key]) :: key in keys
  }

  /**
   * The random UUIDs of the first `n` files are canonical and pairwise different, as
   * `uuid.NewV4()` draws them; their keys are then pairwise different too.
   */
  predicate FreshKeyUuids(env: Env, n: nat) {
    (forall i | 0 <= i < n :: Canonical(env.keyUuid(i).text)) &&
    (forall i, j | 0 <= i < j < n :: env.keyUuid(i) != env.keyUuid(j))
  }

  /** The object `PutObject` writes for a file: its bytes under its Content-Type, public and not to be cached. */
  function FileObject(f: FilePart): (b: Blob)
    requires f.contentTypes != []
    ensures PublicImage(b) && b.content == f.content && b.contentType == f.contentTypes[0]
  {
    Blob(f.content, f.contentTypes[0], true, NoCache)
  }

  /**
   * The key of each of the first `n` files holds a public image object; when the random
   * UUIDs of all the files are fresh, it is that file's own object.
   */
  predicate Stored(objects: map<string, Blob>, p: Project, env: Env, files: seq<FilePart>, n: nat)
    requires n <= |files|
  {
    forall k {:trigger UploadKey(p, env, k, files[k])} | 0 <= k < n ::
      UploadKey(p, env, k, files[k]) in objects && PublicImage(objects[UploadKey(p, env, k, files[k])]) &&
      (FreshKeyUuids(env, |files|) && files[k].contentTypes != [] ==>
         objects[UploadKey(p, env, k, files[k])] == FileObject(files[k]))
  }

  /** A pass of the upload loop keeps the bucket within the keys of the files met so far. */
  lemma GrownByUpload(start: map<string, Blob>, before: map<string, Blob>, after: map<string, Blob>,
                      p: Project, env: Env, files: seq<FilePart>, i: nat, written: Option<Blob>)
    requires i < |files| && Grown(start, before, UploadKeys(p, env, files, i))
    requires after == if written.Some? then before[UploadKey(p, env, i, files[i]) := written.value] else before
    ensures Grown(start, after, UploadKeys(p, env, files, i + 1))
  {
    assert UploadKeys(p, env, files, i + 1) == UploadKeys(p, env, files, i) + {UploadKey(p, env, i, files[i])};
  }

  /** With fresh random UUIDs, two different files of the loop are stored under different keys. */
  lemma UploadKeysDistinct(p: Project, env: Env, files: seq<FilePart>, k: nat, i: nat)
    requires k < i < |files| && FreshKeyUuids(env, |files|)
    ensures UploadKey(p, env, k, files[k]) != UploadKey(p, env, i, files[i])
  {
    DistinctUploadKeys(p.userId, p.id, env.keyUuid(k), files[k].filename, env.keyUuid(i), files[i].filename);
  }

  /**
   * Writing the i-th file's object leaves it stored under its key, and the earlier files
   * keep theirs.
   */
  lemma StoredByUpload(before: map<string, Blob>, after: map<string, Blob>,
                       p: Project, env: Env, files: seq<FilePart>, i: nat)
    requires i < |files| && files[i].contentTypes != [] && Stored(before, p, env, files, i)
    requires after == before[UploadKey(p, env, i, files[i]) := FileObject(files[i])]
    ensures Stored(after, p, env, files, i) && Stored(after, p, env, files, i + 1)
  {
    forall k | 0 <= k < i + 1
      ensures UploadKey(p, env, k, files[k]) in after && PublicImage(after[UploadKey(p, env, k, files[k])]) &&
              (FreshKeyUuids(env, |files|) && files[k].contentTypes != [] ==>
                 after[UploadKey(p, env, k, files[k])] == FileObject(files[k]))
    {
      if k < i && FreshKeyUuids(env, |files|) {
        UploadKeysDistinct(p, env, files, k, i);
      }
    }
  }

  /**
   * The views of a user's listed projects: each shows a project of that user, and every
   * project of that user is shown.
   */
  lemma ListedProjectViews(rows: seq<Project>, userId: Uuid, listed: seq<Project>, views: seq<ProjectView>)
    requires forall p :: multiset(listed)[p] == if p.userId == userId then multiset(rows)[p] else 0
    requires |views| == |listed| && forall k | 0 <= k < |listed| :: views[k] == ProjectHTTPStruct(listed[k])
    ensures forall v | v in views :: v.userId == userId.String()
    ensures forall p | p in rows && p.userId == userId :: ProjectHTTPStruct(p) in views
  {
    forall v | v in views ensures v.userId == userId.String() {
      var k :| 0 <= k < |views| && views[k] == v;
      assert multiset(listed)[listed[k]] > 0;
    }
    forall p | p in rows && p.userId == userId ensures ProjectHTTPStruct(p) in views {
      assert multiset(listed)[p] == multiset(rows)[p] > 0;
      var k :| 0 <= k < |listed| && listed[k] == p;
      assert views[k] == ProjectHTTPStruct(p);
    }
  }

  /**
   * The views of a project's listed images: each shows an image of that project, and
   * every image of that project is shown.
   */
  lemma ListedImageViews(rows: seq<Image>, projectId: Uuid, listed: seq<Image>, views: seq<ImageView>)
    requires forall i :: multiset(listed)[i] == if i.projectId == projectId then multiset(rows)[i] else 0
    requires |views| == |listed| && forall k | 0 <= k < |listed| :: Shows(views[k], listed[k])
    ensures forall v | v in views :: v.projectId == projectId.String()
    ensures forall img | img in rows && img.projectId == projectId :: exists k | 0 <= k < |views| :: Shows(views[k], img)
  {
    forall v | v in views ensures v.projectId == projectId.String() {
      var k :| 0 <= k < |views| && views[k] == v;
      assert multiset(listed)[listed[k]] > 0;
    }
    forall img | img in rows && img.projectId == projectId ensures exists k | 0 <= k < |views| :: Shows(views[k], img) {
      assert multiset(listed)[img] == multiset(rows)[img] > 0;
      var k :| 0 <= k < |listed| && listed[k] == img;
      assert Shows(views[k], img);
    }
  }

  /** The handlers' receiver: the database, the image bucket and its name from the configuration. */
  class Server {
    const db: DB
    const bucket: Bucket
    const bucketName: string

    constructor (db: DB, bucket: Bucket, bucketName: string)
      ensures this.db == db && this.bucket == bucket && this.bucketName == bucketName
    {
      this.db := db;
      this.bucket := bucket;
      this.bucketName := bucketName;
    }

    /**
     * `createProject`: the new project is owned by the user named in the path (the body
     * supplies only the name and the keywords) and is answered with 201.
     */
    method CreateProject(userParam: string, body: Result<CreateRequest, Error>, env: Env) returns (out: Outcome)
      modifies db`projects
      ensures FromString(userParam).None? ==> out == Fail(NewValidationError(UserIdRequired))
      ensures FromString(userParam).Some? && body.Err? ==> out == Fail(body.error)
      ensures FromString(userParam).Some? && body.Ok? ==>
        var userId := FromString(userParam).value;
        var user := UserStore.FindUserByID(db.users, userId, env.fault(FindUser));
        var created := Project(env.newId(InsertProject), userId, body.value.name, body.value.keywords);
        (user.Err? ==> out == Fail(user.error)) &&
        (user.Ok? && env.fault(InsertProject).Some? ==> out == Fail(env.fault(InsertProject).value)) &&
        (user.Ok? && env.fault(InsertProject).None? && ProjectStore.HasProjectId(old(db.projects), created.id) ==>
           out == Fail(DuplicateKeyError("project_pkey"))) &&
        (out.Respond? <==> user.Ok? && env.fault(InsertProject).None? &&
                           !ProjectStore.HasProjectId(old(db.projects), created.id)) &&
        (out.Respond? ==> out == Respond(201, ProjectBody(ProjectHTTPStruct(created))) &&
                          db.projects == old(db.projects) + [created])
      ensures !out.Respond? ==> out.Fail? && db.projects == old(db.projects)
    {
      var userId := FromString(userParam);
      if userId.None? {
        return Fail(NewValidationError(UserIdRequired));
      }
      if body.Err? {
        return Fail(body.error);
      }
      var user := UserStore.FindUserByID(db.users, userId.value, env.fault(FindUser));
      if user.Err? {
        return Fail(user.error);
      }
      var created, err := ProjectStore.CreateProject(db, Project(NilUuid, user.value.id, body.value.name, body.value.keywords),
                                                     env.newId(InsertProject), env.fault(InsertProject));
      if err.Some? {
        return Fail(err.value);
      }
      return Respond(201, ProjectBody(ProjectHTTPStruct(created)));
    }

    /** `getProjects`: exactly the projects the path's user owns, in the model's insertion order. */
    method GetProjects(userParam: string, env: Env) returns (out: Outcome)
      ensures FromString(userParam).None? ==> out == Fail(NewValidationError(UserIdRequired))
      ensures FromString(userParam).Some? ==>
        var userId := FromString(userParam).value;
        var user := UserStore.FindUserByID(db.users, userId, env.fault(FindUser));
        var listed := ProjectStore.AllProjectsForUser(db.projects, userId, env.fault(ListProjects));
        (user.Err? ==> out == Fail(user.error)) &&
        (user.Ok? && listed.Err? ==> out == Fail(listed.error)) &&
        (user.Ok? && listed.Ok? ==>
           out.Respond? && out.status == 200 && out.body.ProjectsBody? &&
           |out.body.projects| == |listed.value| &&
           (forall i | 0 <= i < |listed.value| :: out.body.projects[i] == ProjectHTTPStruct(listed.value[i])) &&
           (forall v | v in out.body.projects :: v.userId == userId.String()) &&
           (forall p | p in db.projects && p.userId == userId :: ProjectHTTPStruct(p) in out.body.projects))
    {
      var userId := FromString(userParam);
      if userId.None? {
        return Fail(NewValidationError(UserIdRequired));
      }
      var user := UserStore.FindUserByID(db.users, userId.value, env.fault(FindUser));
      if user.Err? {
        return Fail(user.error);
      }
      var listed := ProjectStore.AllProjectsForUser(db.projects, user.value.id, env.fault(ListProjects));
      if listed.Err? {
        return Fail(listed.error);
      }
      var views := ProjectHTTPStructs(listed.value);
      ListedProjectViews(db.projects, userId.value, listed.value, views);
      return Respond(200, ProjectsBody(views));
    }

    /**
     * `getProject`: the owner's project, with the status of its job when it has one; a
     * missing job leaves the status empty, any other job-lookup error is returned.
     */
    method GetProject(userParam: string, projectParam: string, env: Env) returns (out: Outcome)
      ensures var g := Gate(db.users, db.projects, userParam, projectParam, env);
        (g.Err? ==> out == Fail(g.error)) &&
        (g.Ok? ==>
           var job := JobStore.FindJobForProject(db.jobs, g.value.id, env.fault(FindJob));
           (job.Err? && job.error != RecordNotFound ==> out == Fail(job.error)) &&
           (job.Err? && job.error == RecordNotFound ==> out == Respond(200, ProjectBody(ProjectHTTPStruct(g.value)))) &&
           (job.Ok? ==> out == Respond(200, ProjectBody(ProjectHTTPStruct(g.value).(status := job.value.status)))))
      ensures out.Respond? && env.fault(FindJob).None? ==>
        out.body.ProjectBody? && (out.body.project.status != "" ==> JobStore.HasJobFor(db.jobs, FromString(projectParam).value))
    {
      var g := Gate(db.users, db.projects, userParam, projectParam, env);
      if g.Err? {
        return Fail(g.error);
      }
      var view := ProjectHTTPStruct(g.value);
      var job := JobStore.FindJobForProject(db.jobs, g.value.id, env.fault(FindJob));
      if job.Err? && job.error != RecordNotFound {
        return Fail(job.error);
      }
      if job.Ok? {
        view := view.(status := job.value.status);
      }
      return Respond(200, ProjectBody(view));
    }

    /** `deleteProject`: removes the owner's project row, and no other row. */
    method DeleteProject(userParam: string, projectParam: string, env: Env) returns (out: Outcome)
      modifies db`projects
      ensures var g := Gate(db.users, old(db.projects), userParam, projectParam, env);
        (g.Err? ==> out == Fail(g.error) && db.projects == old(db.projects)) &&
        (g.Ok? && env.fault(DeleteProjectRow).Some? ==>
           out == Fail(env.fault(DeleteProjectRow).value) && db.projects == old(db.projects)) &&
        (g.Ok? && env.fault(DeleteProjectRow).None? ==>
           out == Respond(200, Empty) &&
           ProjectStore.FindProjectByID(db.projects, g.value.id, None) == Err(RecordNotFound) &&
           forall p: Project | p.id != g.value.id :: multiset(db.projects)[p] == multiset(old(db.projects))[p])
    {
      var g := Gate(db.users, db.projects, userParam, projectParam, env);
      if g.Err? {
        return Fail(g.error);
      }
      ProjectStore.DeletedProjectIsGone(db.projects, g.value.id);
      var err := ProjectStore.DeleteProjectByID(db, g.value.id, env.fault(DeleteProjectRow));
      if err.Some? {
        return Fail(err.value);
      }
      return Respond(200, Empty);
    }

    /**
     * `updateProject`: the owner's project gets the request's keywords and keeps its id,
     * owner and name; the saved row is what a later lookup finds.
     */
    method UpdateProject(userParam: string, projectParam: string, body: Result<UpdateRequest, Error>, env: Env)
      returns (out: Outcome)
      modifies db`projects
      ensures Ids(userParam, projectParam).Err? ==>
        out == Fail(Ids(userParam, projectParam).error) && db.projects == old(db.projects)
      ensures Ids(userParam, projectParam).Ok? && body.Err? ==> out == Fail(body.error) && db.projects == old(db.projects)
      ensures Ids(userParam, projectParam).Ok? && body.Ok? ==>
        var g := Gate(db.users, old(db.projects), userParam, projectParam, env);
        (g.Err? ==> out == Fail(g.error) && db.projects == old(db.projects)) &&
        (g.Ok? && env.fault(SaveProject).Some? ==>
           out == Fail(env.fault(SaveProject).value) && db.projects == old(db.projects)) &&
        (g.Ok? && env.fault(SaveProject).None? ==>
           var updated := g.value.(keywords := body.value.keywords);
           out == Respond(200, ProjectBody(ProjectHTTPStruct(updated))) &&
           db.projects == ProjectStore.Saved(old(db.projects), updated) &&
           ProjectStore.FindProjectByID(db.projects, g.value.id, None) == Ok(updated))
    {
      var ids := Ids(userParam, projectParam);
      if ids.Err? {
        return Fail(ids.error);
      }
      if body.Err? {
        return Fail(body.error);
      }
      var g := Gate(db.users, db.projects, userParam, projectParam, env);
      if g.Err? {
        return Fail(g.error);
      }
      var updated := g.value.(keywords := body.value.keywords);
      ProjectStore.SavedProjectIsFound(db.projects, updated);
      var err := ProjectStore.Update(db, updated, env.fault(SaveProject));
      if err.Some? {
        return Fail(err.value);
      }
      return Respond(200, ProjectBody(ProjectHTTPStruct(updated)));
    }

    /**
     * One pass of the upload loop of `postProjectImage`: read the part's Content-Type,
     * open it, put it in the bucket under its key, close it, and record its row. The
     * object is written exactly when `PutObject` succeeds; the row only when every step
     * succeeds.
     */
    method UploadFile(p: Project, i: nat, f: FilePart, env: Env) returns (failure: Option<Outcome>, ghost written: Option<Blob>)
      modifies db`images, bucket`objects
      ensures failure == FileFailure(env, i, f, old(db.images))
      ensures db.images == if failure.None? then old(db.images) + [UploadRow(bucketName, p, env, i, f)] else old(db.images)
      ensures bucket.objects == if written.Some? then old(bucket.objects)[UploadKey(p, env, i, f) := written.value]
                                else old(bucket.objects)
      ensures written.Some? <==> f.contentTypes != [] && env.fault(OpenFile(i)).None? && env.fault(PutObject(i)).None?
      ensures written.Some? ==> written.value == FileObject(f)
    {
      written := None;
      if f.contentTypes == [] {
        failure := Some(Panicked(ServerSetup.ErrorValue(Failure(IndexOutOfRange))));
        return;
      }
      var contentType := f.contentTypes[0];
      if env.fault(OpenFile(i)).Some? {
        failure := Some(Fail(env.fault(OpenFile(i)).value));
        return;
      }
      var key := UploadKey(p, env, i, f);
      if env.fault(PutObject(i)).Some? {
        failure := Some(Fail(env.fault(PutObject(i)).value));
        return;
      }
      var blob := Blob(f.content, contentType, true, NoCache);
      assert blob == FileObject(f);
      bucket.objects := bucket.objects[key := blob];
      written := Some(blob);
      if env.fault(CloseFile(i)).Some? {
        failure := Some(Fail(env.fault(CloseFile(i)).value));
        return;
      }
      var created, err := ImageStore.CreateImage(db, Image(NilUuid, p.id, S3ImageURL(bucketName, key), [], []),
                                                 env.newId(InsertImage(i)), env.fault(InsertImage(i)));
      if err.Some? {
        failure := Some(Fail(err.value));
        return;
      }
      failure := None;
    }

    /**
     * The uploads up to file `i` went through from the rows `start` and the objects
     * `objects`: their rows follow `start` and their objects are stored.
     */
    predicate UploadedSoFar(p: Project, files: seq<FilePart>, env: Env, start: seq<Image>, objects: map<string, Blob>, i: nat)
      reads db, bucket
      requires i <= |files|
    {
      db.images == start + UploadRows(bucketName, p, env, files, i) &&
      UploadsSucceed(bucketName, p, env, files, start, i) &&
      Stored(bucket.objects, p, env, files, i) &&
      Grown(objects, bucket.objects, UploadKeys(p, env, files, i))
    }

    /**
     * The upload of file `i` failed with `failure`: the files before it are uploaded and
     * recorded as in a complete run, and its own object may have been stored.
     */
    predicate FailedAt(p: Project, files: seq<FilePart>, env: Env, start: seq<Image>, objects: map<string, Blob>, i: nat, failure: Option<Outcome>)
      reads db, bucket
      requires i < |files|
    {
      failure == FileFailure(env, i, files[i], start + UploadRows(bucketName, p, env, files, i)) &&
      db.images == start + UploadRows(bucketName, p, env, files, i) &&
      UploadsSucceed(bucketName, p, env, files, start, i) &&
      Stored(bucket.objects, p, env, files, i) &&
      Grown(objects, bucket.objects, UploadKeys(p, env, files, i + 1))
    }

    /** One pass of the upload loop, stated against the whole run so far. */
    method UploadStep(p: Project, files: seq<FilePart>, i: nat, env: Env,
                      ghost start: seq<Image>, ghost objects: map<string, Blob>)
      returns (failure: Option<Outcome>)
      requires i < |files| && UploadedSoFar(p, files, env, start, objects, i)
      modifies db`images, bucket`objects
      ensures failure.None? ==> UploadedSoFar(p, files, env, start, objects, i + 1)
      ensures failure.Some? ==> FailedAt(p, files, env, start, objects, i, failure)
    {
      ghost var before := bucket.objects;
      ghost var written;
      failure, written := UploadFile(p, i, files[i], env);
      GrownByUpload(objects, before, bucket.objects, p, env, files, i, written);
      if written.Some? {
        StoredByUpload(before, bucket.objects, p, env, files, i);
      }
      if failure.None? {
        UploadsSucceedStep(bucketName, p, env, files, start, i);
        UploadRowsStep(bucketName, p, env, files, i);
      }
    }

    /**
     * The upload loop of `postProjectImage`: the files are uploaded in order until one
     * fails; `count` is how many went through.
     */
    method UploadLoop(p: Project, files: seq<FilePart>, env: Env) returns (failure: Option<Outcome>, count: nat)
      requires UploadedSoFar(p, files, env, db.images, bucket.objects, 0)
      modifies db`images, bucket`objects
      ensures count <= |files|
      ensures failure.None? <==> count == |files|
      ensures failure.None? ==> UploadedSoFar(p, files, env, old(db.images), old(bucket.objects), count)
      ensures failure.Some? ==> count < |files| && FailedAt(p, files, env, old(db.images), old(bucket.objects), count, failure)
    {
      ghost var start, objects := db.images, bucket.objects;
      count := 0;
      while count < |files|
        invariant count <= |files| && UploadedSoFar(p, files, env, start, objects, count)
      {
        failure := UploadStep(p, files, count, env, start, objects);
        if failure.Some? {
          return;
        }
        count := count + 1;
      }
      failure := None;
    }

    /**
     * The upload loop of `postProjectImage` and its reply: the images are answered in
     * file order, or the first failure ends the request; `recorded` is how many files
     * were recorded.
     */
    method UploadFiles(p: Project, files: seq<FilePart>, env: Env) returns (out: Outcome, ghost recorded: nat)
      modifies db`images, bucket`objects
      ensures recorded <= |files|
      ensures db.images == old(db.images) + UploadRows(bucketName, p, env, files, recorded)
      ensures UploadsSucceed(bucketName, p, env, files, old(db.images), recorded)
      ensures recorded < |files| ==>
        Some(out) == FileFailure(env, recorded, files[recorded], old(db.images) + UploadRows(bucketName, p, env, files, recorded))
      ensures out.Respond? <==> recorded == |files|
      ensures out.Respond? ==>
        out.status == 201 && out.body.ImagesBody? && |out.body.images| == |files| &&
        forall k | 0 <= k < |files| :: Shows(out.body.images[k], UploadRows(bucketName, p, env, files, recorded)[k])
      ensures Stored(bucket.objects, p, env, files, recorded)
      ensures Grown(old(bucket.objects), bucket.objects, UploadKeys(p, env, files, if recorded < |files| then recorded + 1 else recorded))
    {
      assert UploadRows(bucketName, p, env, files, 0) == [];
      var failure, count := UploadLoop(p, files, env);
      if failure.Some? {
        return failure.value, count;
      }
      var views := ImageHTTPStructs(UploadRows(bucketName, p, env, files, |files|));
      return Respond(201, ImagesBody(views)), |files|;
    }

    /**
     * `postProjectImage`: behind the ownership gate, the S3 session and the multipart
     * form, the files are uploaded one after the other. Each is stored in the bucket
     * under its key and then recorded as an image of the project, and the images are
     * answered in file order. The first file that fails ends the request with its
     * error: the files before it stay uploaded and recorded, it has no row (its object
     * may already be stored), and the files after it are not touched. Nothing is rolled
     * back.
     */
    method PostProjectImage(userParam: string, projectParam: string, form: Result<seq<FilePart>, Error>, env: Env)
      returns (out: Outcome, ghost recorded: nat)
      modifies db`images, bucket`objects
      ensures var g := Gate(db.users, db.projects, userParam, projectParam, env);
        (g.Err? ==> out == Fail(g.error) && unchanged(db, bucket)) &&
        (g.Ok? && env.fault(S3Session).Some? ==> out == Fail(env.fault(S3Session).value) && unchanged(db, bucket)) &&
        (g.Ok? && env.fault(S3Session).None? && form.Err? ==> out == Fail(form.error) && unchanged(db, bucket)) &&
        (g.Ok? && env.fault(S3Session).None? && form.Ok? ==>
           var p, files := g.value, form.value;
           recorded <= |files| &&
           db.images == old(db.images) + UploadRows(bucketName, p, env, files, recorded) &&
           UploadsSucceed(bucketName, p, env, files, old(db.images), recorded) &&
           (recorded < |files| ==>
              Some(out) == FileFailure(env, recorded, files[recorded], old(db.images) + UploadRows(bucketName, p, env, files, recorded))) &&
           (out.Respond? <==> recorded == |files|) &&
           (out.Respond? ==>
              out.status == 201 && out.body.ImagesBody? && |out.body.images| == |files| &&
              forall k | 0 <= k < |files| :: Shows(out.body.images[k], UploadRows(bucketName, p, env, files, recorded)[k])) &&
           Stored(bucket.objects, p, env, files, recorded) &&
           Grown(old(bucket.objects), bucket.objects, UploadKeys(p, env, files, if recorded < |files| then recorded + 1 else recorded)))
    {
      var g := Gate(db.users, db.projects, userParam, projectParam, env);
      if g.Err? {
        return Fail(g.error), 0;
      }
      if env.fault(S3Session).Some? {
        return Fail(env.fault(S3Session).value), 0;
      }
      if form.Err? {
        return Fail(form.error), 0;
      }
      out, recorded := UploadFiles(g.value, form.value, env);
    }

    /** `getProjectImages`: the owner's project's images; a failed listing ends with no reply. */
    method GetProjectImages(userParam: string, projectParam: string, env: Env) returns (out: Outcome)
      ensures var g := Gate(db.users, db.projects, userParam, projectParam, env);
        (g.Err? ==> out == Fail(g.error)) &&
        (g.Ok? ==>
           var listed := ImageStore.AllImagesForProject(db.images, g.value.id, env.fault(ListImages));
           (listed.Err? ==> out == Silent) &&
           (listed.Ok? ==>
              out.Respond? && out.status == 200 && out.body.ImagesBody? &&
              |out.body.images| == |listed.value| &&
              (forall k | 0 <= k < |listed.value| :: Shows(out.body.images[k], listed.value[k])) &&
              (forall v | v in out.body.images :: v.projectId == g.value.id.String()) &&
              (forall img | img in db.images && img.projectId == g.value.id ::
                 exists k | 0 <= k < |out.body.images| :: Shows(out.body.images[k], img))))
    {
      var g := Gate(db.users, db.projects, userParam, projectParam, env);
      if g.Err? {
        return Fail(g.error);
      }
      var listed := ImageStore.AllImagesForProject(db.images, g.value.id, env.fault(ListImages));
      if listed.Err? {
        return Silent;
      }
      var views := ImageHTTPStructs(listed.value);
      ListedImageViews(db.images, g.value.id, listed.value, views);
      return Respond(200, ImagesBody(views));
    }

    /**
     * `getProjectImage`: the image with the path's id, once the gate has passed. The
     * image is not checked to belong to the project.
     */
    method GetProjectImage(userParam: string, projectParam: string, imageParam: string, env: Env)
      returns (out: Outcome)
      ensures Ids(userParam, projectParam).Err? ==> out == Fail(Ids(userParam, projectParam).error)
      ensures Ids(userParam, projectParam).Ok? && FromString(imageParam).None? ==>
        out == Fail(NewValidationError(ImageIdRequired))
      ensures Ids(userParam, projectParam).Ok? && FromString(imageParam).Some? ==>
        var g := Gate(db.users, db.projects, userParam, projectParam, env);
        var found := ImageStore.FindImageByID(db.images, FromString(imageParam).value, env.fault(FindImage));
        (g.Err? ==> out == Fail(g.error)) &&
        (g.Ok? && found.Err? ==> out == Fail(found.error)) &&
        (g.Ok? && found.Ok? ==>
           out.Respond? && out.status == 200 && out.body.ImageBody? && Shows(out.body.image, found.value) &&
           out.body.image.id == FromString(imageParam).value.String())
    {
      var ids := Ids(userParam, projectParam);
      if ids.Err? {
        return Fail(ids.error);
      }
      var imageId := ParseId(imageParam, ImageIdRequired);
      if imageId.Err? {
        return Fail(imageId.error);
      }
      var g := Gate(db.users, db.projects, userParam, projectParam, env);
      if g.Err? {
        return Fail(g.error);
      }
      var found := ImageStore.FindImageByID(db.images, imageId.value, env.fault(FindImage));
      if found.Err? {
        return Fail(found.error);
      }
      var view := ImageHTTPStruct(found.value);
      return Respond(200, ImageBody(view));
    }

    /**
     * `deleteProjectImage`: deletes the object first and the row after it, so the row is
     * deleted only when the object delete succeeded; a failed object delete leaves both.
     * A missing image ends the request with no reply. The key is the image's URL with
     * the bucket's base URL stripped. The image is not checked to belong to the project.
     */
    method DeleteProjectImage(userParam: string, projectParam: string, imageParam: string, env: Env)
      returns (out: Outcome)
      modifies db`images, bucket`objects
      ensures Ids(userParam, projectParam).Err? ==> out == Fail(Ids(userParam, projectParam).error) && unchanged(db, bucket)
      ensures Ids(userParam, projectParam).Ok? && FromString(imageParam).None? ==>
        out == Fail(NewValidationError(ImageIdRequired)) && unchanged(db, bucket)
      ensures Ids(userParam, projectParam).Ok? && FromString(imageParam).Some? ==>
        var imageId := FromString(imageParam).value;
        var g := Gate(db.users, db.projects, userParam, projectParam, env);
        var found := ImageStore.FindImageByID(old(db.images), imageId, env.fault(FindImage));
        (g.Err? ==> out == Fail(g.error) && unchanged(db, bucket)) &&
        (g.Ok? && found.Err? ==> out == Silent && unchanged(db, bucket)) &&
        (g.Ok? && found.Ok? ==>
           var key := TrimPrefix(found.value.url, S3BucketURL(bucketName));
           (env.fault(S3Session).Some? ==> out == Fail(env.fault(S3Session).value) && unchanged(db, bucket)) &&
           (env.fault(S3Session).None? && env.fault(DeleteObject).Some? ==>
              out == Fail(env.fault(DeleteObject).value) && unchanged(db, bucket)) &&
           (env.fault(S3Session).None? && env.fault(DeleteObject).None? ==>
              bucket.objects == old(bucket.objects) - {key} &&
              (env.fault(DeleteImageRow).Some? ==> out == Fail(env.fault(DeleteImageRow).value) && db.images == old(db.images)) &&
              (env.fault(DeleteImageRow).None? ==>
                 out == Respond(200, Empty) &&
                 ImageStore.FindImageByID(db.images, imageId, None) == Err(RecordNotFound) &&
                 forall img: Image | img.id != imageId :: multiset(db.images)[img] == multiset(old(db.images))[img])))
      ensures db.images != old(db.images) ==> env.fault(S3Session).None? && env.fault(DeleteObject).None?
    {
      var ids := Ids(userParam, projectParam);
      if ids.Err? {
        return Fail(ids.error);
      }
      var imageId := ParseId(imageParam, ImageIdRequired);
      if imageId.Err? {
        return Fail(imageId.error);
      }
      var g := Gate(db.users, db.projects, userParam, projectParam, env);
      if g.Err? {
        return Fail(g.error);
      }
      var found := ImageStore.FindImageByID(db.images, imageId.value, env.fault(FindImage));
      if found.Err? {
        return Silent;
      }
      if env.fault(S3Session).Some? {
        return Fail(env.fault(S3Session).value);
      }
      if env.fault(DeleteObject).Some? {
        return Fail(env.fault(DeleteObject).value);
      }
      bucket.objects := bucket.objects - {TrimPrefix(found.value.url, S3BucketURL(bucketName))};
      ImageStore.DeletedImageIsGone(db.images, found.value.id);
      var err := ImageStore.DeleteImageByID(db, found.value.id, env.fault(DeleteImageRow));
      if err.Some? {
        return Fail(err.value);
      }
      return Respond(200, Empty);
    }

    /**
     * `startProjectJob`: a project gets at most one job. With a job already there the
     * request is refused with 400 and nothing is created; otherwise a PENDING_LABELS job
     * is created and answered with 201, after which the project has a job. A failed
     * insert ends the request with no reply.
     */
    method StartProjectJob(userParam: string, projectParam: string, env: Env) returns (out: Outcome)
      modifies db`jobs
      ensures var g := Gate(db.users, db.projects, userParam, projectParam, env);
        (g.Err? ==> out == Fail(g.error) && unchanged(db)) &&
        (g.Ok? ==>
           var job := JobStore.FindJobForProject(old(db.jobs), g.value.id, env.fault(FindJob));
           var started := Job(env.newId(InsertJob), g.value.id, JobStore.PendingLabels);
           (job.Err? && job.error != RecordNotFound ==> out == Fail(job.error) && unchanged(db)) &&
           (job.Ok? ==> out == Fail(NewValidationError(JobAlreadyExists)) && unchanged(db)) &&
           (job.Err? && job.error == RecordNotFound ==>
              (env.fault(InsertJob).None? && !JobStore.HasJobId(old(db.jobs), started.id) ==>
                 out == Respond(201, JobBody(started.id.String(), JobStore.PendingLabels)) &&
                 db.jobs == old(db.jobs) + [started]) &&
              (env.fault(InsertJob).Some? || JobStore.HasJobId(old(db.jobs), started.id) ==>
                 out == Silent && unchanged(db))))
      ensures out.Respond? ==> JobStore.FindJobForProject(db.jobs, FromString(projectParam).value, None).Ok?
    {
      var g := Gate(db.users, db.projects, userParam, projectParam, env);
      if g.Err? {
        return Fail(g.error);
      }
      var job := JobStore.FindJobForProject(db.jobs, g.value.id, env.fault(FindJob));
      if job.Err? && job.error != RecordNotFound {
        return Fail(job.error);
      }
      if job.Ok? {
        return Fail(NewValidationError(JobAlreadyExists));
      }
      var created := JobStore.CreateNewJob(db, g.value.id, env.newId(InsertJob), env.fault(InsertJob));
      if created.Err? {
        return Silent;
      }
      JobStore.CreatedJobIsFound(old(db.jobs), created.value);
      return Respond(201, JobBody(created.value.id.String(), created.value.status));
    }
  }
}

=== FILE: hash_generator.dfy ===
/**
 * pkg/model/hash_generator.go: `generateUID`, which cuts 63-bit random draws into 6-bit
 * letter indices, lowest bits first, keeps those that index `letterBytes` and drops the
 * rest, until `uidLength` letters are written. The random source is given as the
 * sequence of values its `Int63()` calls return; if the sequence runs out before the
 * identifier is complete, no identifier is produced.
 */
module HashGenerator {
  import opened Wrappers

  const UidLength := 16
  const LetterBytes := "abcdefghijklmnopqrstuvwxyzABCDEFGHIJKLMNOPQRSTUVWXYZ"
  const LetterIdxBits := 6
  /** `1<<letterIdxBits - 1`: the low six bits. */
  const LetterIdxMask := 63
  /** `63 / letterIdxBits`: how many indices one draw supplies. */
  const LetterIdxMax := 10

  /** A value of `Int63()`: a non-negative 63-bit integer. */
  newtype Int63 = x: int | 0 <= x < 0x8000_0000_0000_0000

  /**
   * On the 64 bits of a cache value, `cache & letterIdxMask` is the remainder modulo 64
   * and `cache >> letterIdxBits` the quotient by 64, so the chunk steps below are written
   * with `%` and `/` on the non-negative integer value.
   */
  lemma MaskAndShift(cache: bv64)
    ensures cache & (LetterIdxMask as bv64) == cache % 64
    ensures cache >> LetterIdxBits == cache / 64
  {
  }

  /** The letters kept from the lowest `remain` six-bit chunks of `cache`. */
  function ChunkLetters(cache: int, remain: nat): (r: string)
    requires cache >= 0
    ensures |r| <= remain
  {
    if remain == 0 then [] else Kept(cache) + ChunkLetters(cache / (LetterIdxMask + 1), remain - 1)
  }

  /**
   * The letter the lowest six bits of `cache` select, or nothing when they index past
   * the end of `letterBytes`.
   */
  function Kept(cache: int): (r: string)
    requires cache >= 0
    ensures |r| <= 1
    ensures r != [] <==> cache % 64 < 52
    ensures r != [] ==> r[0] == LetterBytes[cache % 64]
  {
    var idx := cache % (LetterIdxMask + 1);
    if idx < |LetterBytes| then [LetterBytes[idx]] else []
  }

  /** Every letter the draws can supply, in the order the loop meets them. */
  function Letters(draws: seq<Int63>): (r: string)
    ensures |r| <= LetterIdxMax * |draws|
  {
    if draws == [] then []
    else ChunkLetters(draws[0] as int, LetterIdxMax) + Letters(draws[1..])
  }

  /**
   * `generateUID`: the identifier is the first `uidLength` letters the draws supply;
   * it exists exactly when they supply that many.
   */
  method GenerateUID(draws: seq<Int63>) returns (uid: Option<string>)
    ensures uid.Some? <==> |Letters(draws)| >= UidLength
    ensures uid.Some? ==> uid.value == Letters(draws)[..UidLength]
    ensures uid.Some? ==> |uid.value| == UidLength && forall c | c in uid.value :: c in LetterBytes
  {
    if draws == [] {
      return None;
    }
    var sb: string := "";
    var i := UidLength - 1;
    var cache: int := draws[0] as int;
    var remain := LetterIdxMax;
    var next := 1;
    ghost var all := Letters(draws);
    ghost var rest := all;
    while i >= 0
      invariant 1 <= next <= |draws|
      invariant 0 <= remain <= LetterIdxMax && cache >= 0
      invariant -1 <= i < UidLength && |sb| == UidLength - 1 - i
      invariant rest == ChunkLetters(cache, remain) + Letters(draws[next..])
      invariant sb + rest == all
      decreases |draws| - next, remain
    {
      if remain == 0 {
        if next == |draws| {
          assert rest == [];
          return None;
        }
        LettersUnfold(draws, next);
        cache, remain := draws[next] as int, LetterIdxMax;
        next := next + 1;
        assert rest == ChunkLetters(cache, remain) + Letters(draws[next..]);
      }
      ghost var sb0, cache0, remain0 := sb, cache, remain;
      // `cache & letterIdxMask` indexes the alphabet: in range, its letter is written and `i` counts down.
      var letter := Kept(cache);
      sb, i := sb + letter, i - |letter|;
      cache := cache / (LetterIdxMask + 1);
      remain := remain - 1;
      rest := ChunkLetters(cache, remain) + Letters(draws[next..]);
      ChunkStep(sb0, sb, cache0, remain0, cache, remain, Letters(draws[next..]), all);
    }
    assert Letters(draws)[..UidLength] == sb;
    LettersInAlphabet(draws);
    uid := Some(sb);
  }

  /** The first letter comes from the lowest six bits of the first draw. */
  lemma LowestBitsFirst(draws: seq<Int63>)
    requires |draws| > 0 && (draws[0] as int) % 64 < |LetterBytes|
    ensures Letters(draws)[0] == LetterBytes[(draws[0] as int) % 64]
  {
    var c := draws[0] as int;
    var later := ChunkLetters(c / (LetterIdxMask + 1), LetterIdxMax - 1) + Letters(draws[1..]);
    assert Letters(draws) == Kept(c) + later by {
      ChunkUnfold(c, LetterIdxMax);
      ConcatAssoc(Kept(c), ChunkLetters(c / (LetterIdxMask + 1), LetterIdxMax - 1), Letters(draws[1..]));
    }
    assert c % (LetterIdxMask + 1) == c % 64;
  }

  /** A chunk that does not index the alphabet contributes no letter. */
  lemma RejectedChunkSkipped(cache: int, remain: nat)
    requires cache >= 0 && remain > 0 && cache % 64 >= |LetterBytes|
    ensures ChunkLetters(cache, remain) == ChunkLetters(cache / 64, remain - 1)
  {
  }

  /** Every letter a chunk supplies is one of `letterBytes`. */
  lemma {:induction false} ChunkLettersInAlphabet(cache: int, remain: nat)
    requires cache >= 0
    ensures forall c | c in ChunkLetters(cache, remain) :: c in LetterBytes
  {
    if remain > 0 {
      ChunkLettersInAlphabet(cache / (LetterIdxMask + 1), remain - 1);
    }
  }

  /**
   * One chunk of the loop: the letter it keeps moves from the letters still to come to
   * the letters written.
   */
  lemma ChunkStep(sb0: string, sb: string, cache: int, remain: nat, cache': int, remain': nat, later: string, all: string)
    requires cache >= 0 && remain > 0 && cache' == cache / (LetterIdxMask + 1) && remain' == remain - 1
    requires sb0 + (ChunkLetters(cache, remain) + later) == all
    requires sb == sb0 + Kept(cache)
    ensures sb + (ChunkLetters(cache', remain') + later) == all
  {
    ChunkUnfold(cache, remain);
    ConcatAssoc(Kept(cache), ChunkLetters(cache / (LetterIdxMask + 1), remain - 1), later);
    ConcatAssoc(sb0, Kept(cache), ChunkLetters(cache / (LetterIdxMask + 1), remain - 1) + later);
  }

  lemma ConcatAssoc(a: string, b: string, c: string)
    ensures (a + b) + c == a + (b + c)
  {
  }

  lemma ChunkUnfold(cache: int, remain: nat)
    requires cache >= 0 && remain > 0
    ensures ChunkLetters(cache, remain) == Kept(cache) + ChunkLetters(cache / (LetterIdxMask + 1), remain - 1)
  {
  }

  lemma LettersUnfold(draws: seq<Int63>, next: nat)
    requires next < |draws|
    ensures Letters(draws[next..]) == ChunkLetters(draws[next] as int, LetterIdxMax) + Letters(draws[next + 1..])
  {
    assert draws[next..][1..] == draws[next + 1..];
  }

  /** Every letter the draws supply is one of `letterBytes`. */
  lemma {:induction false} LettersInAlphabet(draws: seq<Int63>)
    ensures forall c | c in Letters(draws) :: c in LetterBytes
  {
    if draws != [] {
      ChunkLettersInAlphabet(draws[0] as int, LetterIdxMax);
      LettersInAlphabet(draws[1..]);
    }
  }
}

=== FILE: image_store.dfy ===
/** pkg/model/image.go: the image queries. */
module ImageStore {
  import opened Wrappers
  import opened Uuids
  import opened Errors
  import opened Store

  predicate HasImageId(rows: seq<Image>, id: Uuid) { AnyMatch(rows, (i: Image) => i.id == id) }

  /**
   * `CreateImage`: inserts the image under the id the database generates; the rows
   * already there are left as they were.
   */
  method CreateImage(db: DB, image: Image, newId: Uuid, fault: Option<Error>)
    returns (created: Image, err: Option<Error>)
    modifies db`images
    ensures created == image.(id := newId)
    ensures err.None? <==> fault.None? && !HasImageId(old(db.images), newId)
    ensures fault.Some? ==> err == fault
    ensures fault.None? && err.Some? ==> err == Some(DuplicateKeyError("image_pkey"))
    ensures db.images == if err.None? then old(db.images) + [created] else old(db.images)
  {
    created := image.(id := newId);
    if fault.Some? {
      err := fault;
    } else if HasImageId(db.images, newId) {
      err := Some(DuplicateKeyError("image_pkey"));
    } else {
      db.images := db.images + [created];
      err := None;
    }
  }

  /** `AllImagesForProject`: the rows whose project column is `projectId`. */
  function AllImagesForProject(rows: seq<Image>, projectId: Uuid, fault: Option<Error>): (r: Result<seq<Image>, Error>)
    ensures fault.Some? <==> r.Err?
    ensures r.Err? ==> r.error == fault.value
    ensures r.Ok? ==> forall i :: multiset(r.value)[i] == if i.projectId == projectId then multiset(rows)[i] else 0
  {
    if fault.Some? then Err(fault.value) else Ok(Filter(rows, (i: Image) => i.projectId == projectId))
  }

  /** `FindImageByID`: the image with that id, or record-not-found. */
  function FindImageByID(rows: seq<Image>, id: Uuid, fault: Option<Error>): (r: Result<Image, Error>)
    ensures fault.Some? ==> r == Err(fault.value)
    ensures fault.None? ==> (r.Ok? <==> HasImageId(rows, id))
    ensures fault.None? && r.Err? ==> r.error == RecordNotFound
    ensures r.Ok? ==> r.value in rows && r.value.id == id
  {
    if fault.Some? then Err(fault.value)
    else match FirstMatch(rows, (i: Image) => i.id == id)
      case Some(i) => Ok(i)
      case None => Err(RecordNotFound)
  }

  /** `DeleteImageByID`: removes the rows with that id and no other. */
  method DeleteImageByID(db: DB, id: Uuid, fault: Option<Error>) returns (err: Option<Error>)
    modifies db`images
    ensures err == fault
    ensures db.images == if fault.None? then RemoveMatching(old(db.images), (i: Image) => i.id == id)
                         else old(db.images)
  {
    err := fault;
    if fault.None? {
      db.images := RemoveMatching(db.images, (i: Image) => i.id == id);
    }
  }

  /** After a delete the id is no longer found and every other image keeps its rows. */
  lemma DeletedImageIsGone(rows: seq<Image>, id: Uuid)
    ensures FindImageByID(RemoveMatching(rows, (i: Image) => i.id == id), id, None) == Err(RecordNotFound)
    ensures forall img: Image | img.id != id ::
      multiset(RemoveMatching(rows, (i: Image) => i.id == id))[img] == multiset(rows)[img]
  {
    var rest := RemoveMatching(rows, (i: Image) => i.id == id);
    assert forall k | 0 <= k < |rest| :: rest[k] in rest;
  }
}

=== FILE: job_store.dfy ===
/** pkg/model/jobs.go: the job queries. */
module JobStore {
  import opened Wrappers
  import opened Uuids
  import opened Errors
  import opened Store

  const PendingLabels := "PENDING_LABELS"

  predicate HasJobId(rows: seq<Job>, id: Uuid) { AnyMatch(rows, (j: Job) => j.id == id) }

  predicate HasJobFor(rows: seq<Job>, projectId: Uuid) { AnyMatch(rows, (j: Job) => j.projectId == projectId) }

  /**
   * `CreateNewJob`: inserts a job for the project with status PENDING_LABELS and returns
   * it; on a failed insert no job is returned, only the error.
   */
  method CreateNewJob(db: DB, projectId: Uuid, newId: Uuid, fault: Option<Error>) returns (r: Result<Job, Error>)
    modifies db`jobs
    ensures r.Ok? <==> fault.None? && !HasJobId(old(db.jobs), newId)
    ensures r.Ok? ==> r.value == Job(newId, projectId, PendingLabels)
    ensures fault.Some? ==> r == Err(fault.value)
    ensures fault.None? && r.Err? ==> r.error == DuplicateKeyError("jobs_pkey")
    ensures db.jobs == if r.Ok? then old(db.jobs) + [r.value] else old(db.jobs)
  {
    var job := Job(newId, projectId, PendingLabels);
    if fault.Some? {
      r := Err(fault.value);
    } else if HasJobId(db.jobs, newId) {
      r := Err(DuplicateKeyError("jobs_pkey"));
    } else {
      db.jobs := db.jobs + [job];
      r := Ok(job);
    }
  }

  /** `FindJobForProject`: a job of that project, or record-not-found when it has none. */
  function FindJobForProject(rows: seq<Job>, projectId: Uuid, fault: Option<Error>): (r: Result<Job, Error>)
    ensures fault.Some? ==> r == Err(fault.value)
    ensures fault.None? ==> (r.Ok? <==> HasJobFor(rows, projectId))
    ensures fault.None? && r.Err? ==> r.error == RecordNotFound
    ensures r.Ok? ==> r.value in rows && r.value.projectId == projectId
  {
    if fault.Some? then Err(fault.value)
    else match FirstMatch(rows, (j: Job) => j.projectId == projectId)
      case Some(j) => Ok(j)
      case None => Err(RecordNotFound)
  }

  /** Once a job is inserted for a project, the lookup for that project finds a job. */
  lemma {:induction false} CreatedJobIsFound(rows: seq<Job>, job: Job)
    ensures FindJobForProject(rows + [job], job.projectId, None).Ok?
  {
    assert (rows + [job])[|rows|].projectId == job.projectId;
  }
}

=== FILE: middleware.dfy ===
/**
 * pkg/server/middleware.go: the error handler that turns an error into the JSON error
 * reply, the JWT error mapping, and the `protected` switch between the JWT check and a
 * pass-through.
 */
module Middleware {
  import opened Errors
  import opened GoStrings
  import Store

  /** The `{"error": ..., "code": ...}` body; the reply's HTTP status is always `code`. */
  datatype ErrResponse = ErrResponse(code: int, error: string)

  /** What a fiber middleware does with the request: stop, hand it on, or hand on an error. */
  datatype Flow = Stop | Next | NextErr(err: Error)

  const BodyParsePrefix := "bodyparser: cannot parse content-type:"
  const ContentTypeRequired := "Content-Type: application/json header is required"
  const RecordAlreadyExists := "record already exists"
  const RecordDoesNotExist := "record does not exist"
  const InternalErrorMessage := "internal error"

  /** The replies that do not come from a public error's own message. */
  predicate IsFixedMessage(m: string) {
    m == ContentTypeRequired || m == RecordAlreadyExists || m == RecordDoesNotExist || m == InternalErrorMessage
  }

  /**
   * `errorHandler`: the body-parser prefix rule, then the duplicate-key prefix rule, then
   * the record-not-found sentinel, then public errors with their own code and message;
   * anything else is masked as a 500.
   */
  function ErrorHandler(e: Error): (r: ErrResponse)
    ensures HasPrefix(ErrorText(e), BodyParsePrefix) ==> r == ErrResponse(400, ContentTypeRequired)
    ensures !HasPrefix(ErrorText(e), BodyParsePrefix) && HasPrefix(ErrorText(e), DuplicateKeyPrefix)
      ==> r == ErrResponse(409, RecordAlreadyExists)
    ensures e == RecordNotFound ==> r == ErrResponse(404, RecordDoesNotExist)
    ensures e.Public? && !HasPrefix(ErrorText(e), BodyParsePrefix) && !HasPrefix(ErrorText(e), DuplicateKeyPrefix)
      ==> r == ErrResponse(e.pe.Code(), e.pe.PublicMessage())
    ensures e.Failure? && !HasPrefix(e.text, BodyParsePrefix) && !HasPrefix(e.text, DuplicateKeyPrefix)
      ==> r == ErrResponse(500, InternalErrorMessage)
    // the text of an error that is not public never reaches the client
    ensures !e.Public? ==> IsFixedMessage(r.error)
  {
    var text := ErrorText(e);
    if HasPrefix(text, BodyParsePrefix) then ErrResponse(400, ContentTypeRequired)
    else if HasPrefix(text, DuplicateKeyPrefix) then ErrResponse(409, RecordAlreadyExists)
    else if e == RecordNotFound then ErrResponse(404, RecordDoesNotExist)
    else if !e.Public? then ErrResponse(500, InternalErrorMessage)
    else ErrResponse(e.pe.Code(), e.pe.PublicMessage())
  }

  /**
   * The rules are tried in order and the first match wins: a public error whose message
   * happens to start with the body-parser prefix is answered as a body-parser error, not
   * with its own code.
   */
  lemma PrefixRulesPrecedePublicErrors(suffix: string, code: int)
    ensures ErrorHandler(NewPublicError(BodyParsePrefix + suffix, code)) == ErrResponse(400, ContentTypeRequired)
    ensures ErrorHandler(NewPublicError(DuplicateKeyPrefix + suffix, code)) == ErrResponse(409, RecordAlreadyExists)
  {
    assert (BodyParsePrefix + suffix)[..|BodyParsePrefix|] == BodyParsePrefix;
    assert (DuplicateKeyPrefix + suffix)[..|DuplicateKeyPrefix|] == DuplicateKeyPrefix;
    assert BodyParsePrefix[0] == 'b' && DuplicateKeyPrefix[0] == 'p';
    assert (DuplicateKeyPrefix + suffix)[0] == DuplicateKeyPrefix[0];
  }

  const MissingOrMalformedJwt := "Missing or malformed JWT"

  /** `jwtError`: the one malformed-token text becomes a 400, every other JWT failure a 401. */
  function JwtError(text: string): (e: Error)
    ensures e.Public?
    ensures text == MissingOrMalformedJwt <==> e.pe.Code() == 400
    ensures text == MissingOrMalformedJwt ==> e == NewValidationError("missing or malformed JWT")
    ensures text != MissingOrMalformedJwt ==> e == NewPublicError("invalid or expired JWT", 401)
  {
    if text == MissingOrMalformedJwt then NewValidationError("missing or malformed JWT")
    else NewPublicError("invalid or expired JWT", 401)
  }

  /** The verdict of the JWT middleware on a request's bearer token (signature and expiry). */
  datatype JwtVerdict = Accepted | Rejected(reason: string)

  /**
   * `protected`: with authentication disabled every request passes on unchecked; with it
   * enabled a rejected token is handed on as the `jwtError` mapping of the rejection.
   */
  function Protected(authEnabled: bool, verdict: JwtVerdict): (f: Flow)
    ensures !authEnabled ==> f == Next
    ensures authEnabled ==> (f == Next <==> verdict.Accepted?)
    ensures authEnabled && verdict.Rejected? ==> f == NextErr(JwtError(verdict.reason))
  {
    if !authEnabled then Next
    else match verdict
      case Accepted => Next
      case Rejected(reason) => NextErr(JwtError(reason))
  }

  /**
   * A rejected token reaches the client as a 400 "missing or malformed JWT" or a 401
   * "invalid or expired JWT", and nothing else.
   */
  lemma RejectedTokenReply(reason: string)
    ensures var r := ErrorHandler(JwtError(reason));
      if reason == MissingOrMalformedJwt then r == ErrResponse(400, "missing or malformed JWT")
      else r == ErrResponse(401, "invalid or expired JWT")
  {
    var m := if reason == MissingOrMalformedJwt then "missing or malformed JWT" else "invalid or expired JWT";
    assert BodyParsePrefix[0] == 'b' && DuplicateKeyPrefix[0] == 'p';
    assert m[0] == 'm' || m[0] == 'i';
  }

  /** A store insert that breaks a unique constraint reaches the client as 409 "record already exists". */
  lemma DuplicateKeyAnswered409(constraint: string)
    ensures ErrorHandler(Store.DuplicateKeyError(constraint)) == ErrResponse(409, RecordAlreadyExists)
  {
    var e := Store.DuplicateKeyError(constraint);
    assert ErrorText(e)[0] == DuplicateKeyPrefix[0] == 'p' && BodyParsePrefix[0] == 'b';
    NotPrefixAt(ErrorText(e), BodyParsePrefix, 0);
  }
}

=== FILE: project_store.dfy ===
/** pkg/model/project.go: the project queries. */
module ProjectStore {
  import opened Wrappers
  import opened Uuids
  import opened Errors
  import opened Store

  predicate HasProjectId(rows: seq<Project>, id: Uuid) { AnyMatch(rows, (p: Project) => p.id == id) }

  /**
   * `CreateProject`: inserts the project under the id the database generates and returns
   * the project as stored; an id already present breaks the primary key.
   */
  method CreateProject(db: DB, project: Project, newId: Uuid, fault: Option<Error>)
    returns (created: Project, err: Option<Error>)
    modifies db`projects
    ensures created == project.(id := newId)
    ensures err.None? <==> fault.None? && !HasProjectId(old(db.projects), newId)
    ensures fault.Some? ==> err == fault
    ensures fault.None? && err.Some? ==> err == Some(DuplicateKeyError("project_pkey"))
    ensures db.projects == if err.None? then old(db.projects) + [created] else old(db.projects)
  {
    created := project.(id := newId);
    if fault.Some? {
      err := fault;
    } else if HasProjectId(db.projects, newId) {
      err := Some(DuplicateKeyError("project_pkey"));
    } else {
      db.projects := db.projects + [created];
      err := None;
    }
  }

  /** `AllProjectsForUser`: the rows whose owner column is `userId`. */
  function AllProjectsForUser(rows: seq<Project>, userId: Uuid, fault: Option<Error>): (r: Result<seq<Project>, Error>)
    ensures fault.Some? <==> r.Err?
    ensures r.Err? ==> r.error == fault.value
    ensures r.Ok? ==> forall p :: multiset(r.value)[p] == if p.userId == userId then multiset(rows)[p] else 0
  {
    if fault.Some? then Err(fault.value) else Ok(Filter(rows, (p: Project) => p.userId == userId))
  }

  /** `FindProjectByID`: the project with that id, or record-not-found. */
  function FindProjectByID(rows: seq<Project>, id: Uuid, fault: Option<Error>): (r: Result<Project, Error>)
    ensures fault.Some? ==> r == Err(fault.value)
    ensures fault.None? ==> (r.Ok? <==> HasProjectId(rows, id))
    ensures fault.None? && r.Err? ==> r.error == RecordNotFound
    ensures r.Ok? ==> r.value in rows && r.value.id == id
  {
    if fault.Some? then Err(fault.value)
    else match FirstMatch(rows, (p: Project) => p.id == id)
      case Some(p) => Ok(p)
      case None => Err(RecordNotFound)
  }

  /** `DeleteProjectByID`: removes the rows with that id and no other. */
  method DeleteProjectByID(db: DB, id: Uuid, fault: Option<Error>) returns (err: Option<Error>)
    modifies db`projects
    ensures err == fault
    ensures db.projects == if fault.None? then RemoveMatching(old(db.projects), (p: Project) => p.id == id)
                           else old(db.projects)
  {
    err := fault;
    if fault.None? {
      db.projects := RemoveMatching(db.projects, (p: Project) => p.id == id);
    }
  }

  /**
   * Every row with the project's id replaced by the project: the table keeps its length
   * and every other row keeps its multiplicity.
   */
  function Overwrite(rows: seq<Project>, project: Project): (r: seq<Project>)
    ensures |r| == |rows|
    ensures HasProjectId(rows, project.id) ==> project in r
    ensures forall x | x in r && x.id == project.id :: x == project
    ensures forall x: Project | x.id != project.id :: multiset(r)[x] == multiset(rows)[x]
  {
    if rows == [] then []
    else
      var head := if rows[0].id == project.id then project else rows[0];
      var rest := Overwrite(rows[1..], project);
      assert multiset(rows) == multiset([rows[0]]) + multiset(rows[1..]) by {
        assert rows == [rows[0]] + rows[1..];
      }
      assert multiset([head] + rest) == multiset([head]) + multiset(rest);
      assert forall x | x in [head] + rest :: x == head || x in rest;
      if HasProjectId(rows, project.id) && rows[0].id != project.id then
        AnyMatchTail(rows, (p: Project) => p.id == project.id);
        [head] + rest
      else
        [head] + rest
  }

  /**
   * The rows after gorm's `Save`: every row with the project's id is overwritten; when
   * the update touches no row, the project is inserted instead. Either way the project
   * is stored, it is the only value stored under its id, and every row with another id
   * keeps its multiplicity.
   */
  function Saved(rows: seq<Project>, project: Project): (r: seq<Project>)
    ensures project in r
    ensures forall x | x in r && x.id == project.id :: x == project
    ensures forall x: Project | x.id != project.id :: multiset(r)[x] == multiset(rows)[x]
    ensures |r| == if HasProjectId(rows, project.id) then |rows| else |rows| + 1
  {
    if HasProjectId(rows, project.id) then Overwrite(rows, project)
    else
      assert forall x | x in rows :: x.id != project.id by {
        forall x | x in rows ensures x.id != project.id {
          var i :| 0 <= i < |rows| && rows[i] == x;
        }
      }
      rows + [project]
  }

  /** `(*Project).Update`: `db.Save(p)`. */
  method Update(db: DB, project: Project, fault: Option<Error>) returns (err: Option<Error>)
    modifies db`projects
    ensures err == fault
    ensures db.projects == if fault.None? then Saved(old(db.projects), project) else old(db.projects)
  {
    err := fault;
    if fault.None? {
      db.projects := Saved(db.projects, project);
    }
  }

  /** After a successful insert the new project is found by its id. */
  lemma {:induction false} CreatedProjectIsFound(rows: seq<Project>, created: Project)
    requires !HasProjectId(rows, created.id)
    ensures FindProjectByID(rows + [created], created.id, None) == Ok(created)
  {
    var all := rows + [created];
    assert all[|rows|].id == created.id;
    var r := FirstMatch(all, (p: Project) => p.id == created.id);
    var i :| 0 <= i < |all| && all[i] == r.value && r.value.id == created.id;
    assert i == |rows|;
  }

  /** After a delete the id is gone and every other row is still there, as often as before. */
  lemma DeletedProjectIsGone(rows: seq<Project>, id: Uuid)
    ensures FindProjectByID(RemoveMatching(rows, (p: Project) => p.id == id), id, None) == Err(RecordNotFound)
    ensures forall p: Project | p.id != id ::
      multiset(RemoveMatching(rows, (p: Project) => p.id == id))[p] == multiset(rows)[p]
  {
    var rest := RemoveMatching(rows, (p: Project) => p.id == id);
    assert forall i | 0 <= i < |rest| :: rest[i] in rest;
  }

  /** Saving a project that is stored leaves it the only row with its id found. */
  lemma {:induction false} SavedProjectIsFound(rows: seq<Project>, project: Project)
    ensures FindProjectByID(Saved(rows, project), project.id, None) == Ok(project)
  {
    var after := Saved(rows, project);
    var k :| 0 <= k < |after| && after[k] == project;
    assert HasProjectId(after, project.id);
    var r := FirstMatch(after, (p: Project) => p.id == project.id);
    var i :| 0 <= i < |after| && after[i] == r.value && r.value.id == project.id;
    assert after[i] in after;
  }
}

=== FILE: s3_keys.dfy ===
/**
 * The storage key and URL builders of pkg/server/projects.go: `s3BucketURL`,
 * `s3ImageURL`, `s3ImageKey` and the `{uuid}_{filename}` object name, together with the
 * reading-back that `deleteProjectImage` does with `strings.TrimPrefix`.
 */
module S3Keys {
  import opened Wrappers
  import opened Uuids
  import opened GoStrings

  /**
   * `s3BucketURL`: the public base URL of a bucket, `https://{bucket}.s3.amazonaws.com/`;
   * the bucket name sits between the scheme and the S3 host.
   */
  function S3BucketURL(bucket: string): (url: string)
    ensures |url| == |bucket| + 26
    ensures url[..8] == "https://" && url[8..8 + |bucket|] == bucket && url[8 + |bucket|..] == ".s3.amazonaws.com/"
  {
    "https://" + bucket + ".s3.amazonaws.com/"
  }

  /** Different buckets have different base URLs. */
  lemma S3BucketURLInjective(b1: string, b2: string)
    requires S3BucketURL(b1) == S3BucketURL(b2)
    ensures b1 == b2
  {
    var u := S3BucketURL(b1);
    assert |b1| == |b2|;
    assert b1 == u[8..8 + |b1|];
  }

  /** `s3ImageURL`: the public URL of a key; stripping the base URL gives the key back. */
  function S3ImageURL(bucket: string, key: string): (url: string)
    ensures HasPrefix(url, S3BucketURL(bucket))
    ensures TrimPrefix(url, S3BucketURL(bucket)) == key
  {
    TrimPrefixOfConcat(S3BucketURL(bucket), key);
    S3BucketURL(bucket) + key
  }

  /**
   * The object name `postProjectImage` uploads a file under, `{uuid}_{filename}`: it
   * reads back as the UUID text, an underscore and the file name.
   */
  function ObjectName(keyUuid: Uuid, filename: string): (name: string)
    ensures |name| == |keyUuid.text| + 1 + |filename|
    ensures name[..|keyUuid.text|] == keyUuid.text && name[|keyUuid.text|] == '_' &&
            name[|keyUuid.text| + 1..] == filename
  {
    keyUuid.String() + "_" + filename
  }

  const UsersSegment := "users/"
  const ProjectsSegment := "/projects/"

  /**
   * Reads a key of the form `users/{user}/projects/{project}/{name}` with canonical
   * UUID texts back into its three parts.
   */
  function ParseImageKey(key: string): Option<(Uuid, Uuid, string)> {
    if |key| >= 89 && key[..6] == UsersSegment && Canonical(key[6..42]) && key[42..52] == ProjectsSegment &&
       Canonical(key[52..88]) && key[88] == '/'
    then Some((Uuid(key[6..42]), Uuid(key[52..88]), key[89..]))
    else None
  }

  /** `s3ImageKey`: the key of an image of a user's project; it reads back into its parts. */
  function S3ImageKey(userId: Uuid, projectId: Uuid, imageName: string): (key: string)
    ensures Canonical(userId.text) && Canonical(projectId.text) ==>
      ParseImageKey(key) == Some((userId, projectId, imageName))
  {
    var key := UsersSegment + userId.String() + ProjectsSegment + projectId.String() + "/" + imageName;
    if Canonical(userId.text) && Canonical(projectId.text) then
      assert key[..6] == UsersSegment;
      assert key[6..42] == userId.text;
      assert key[42..52] == ProjectsSegment;
      assert key[52..88] == projectId.text;
      assert key[88] == '/';
      assert key[89..] == imageName;
      key
    else key
  }

  /**
   * Two uploads under different random UUIDs never share a key, whatever the file names:
   * the UUID text has a fixed length, so the keys differ inside it.
   */
  lemma DistinctUploadKeys(userId: Uuid, projectId: Uuid, u1: Uuid, f1: string, u2: Uuid, f2: string)
    requires Canonical(u1.text) && Canonical(u2.text) && u1 != u2
    ensures S3ImageKey(userId, projectId, ObjectName(u1, f1)) != S3ImageKey(userId, projectId, ObjectName(u2, f2))
  {
    var prefix := UsersSegment + userId.String() + ProjectsSegment + projectId.String() + "/";
    var k1, k2 := prefix + ObjectName(u1, f1), prefix + ObjectName(u2, f2);
    assert k1[|prefix|..|prefix| + 36] == u1.text;
    assert k2[|prefix|..|prefix| + 36] == u2.text;
  }

  /** The key `deleteProjectImage` recovers from an uploaded image's URL is the uploaded key. */
  lemma UploadedKeyRecovered(bucket: string, userId: Uuid, projectId: Uuid, keyUuid: Uuid, filename: string)
    requires Canonical(userId.text) && Canonical(projectId.text)
    ensures var key := S3ImageKey(userId, projectId, ObjectName(keyUuid, filename));
      TrimPrefix(S3ImageURL(bucket, key), S3BucketURL(bucket)) == key &&
      ParseImageKey(key) == Some((userId, projectId, ObjectName(keyUuid, filename)))
  {
  }
}

=== FILE: server.dfy ===
/**
 * pkg/server/server.go: its own copy of the error handler (without the record-not-found
 * rule), the `handler` adapter, the `Recover` middleware and the port choice of `Serve`.
 * The `Recover` of pkg/server/middleware.go is the same code and is modelled once, here.
 */
module ServerSetup {
  import opened Wrappers
  import opened Errors
  import opened GoStrings
  import opened Middleware

  /**
   * server.go's `errorHandler`: the two prefix rules, then public errors; everything
   * else, record-not-found included, is masked as a 500.
   */
  function ErrorHandler(e: Error): (r: ErrResponse)
    ensures HasPrefix(ErrorText(e), BodyParsePrefix) ==> r == ErrResponse(400, ContentTypeRequired)
    ensures !HasPrefix(ErrorText(e), BodyParsePrefix) && HasPrefix(ErrorText(e), DuplicateKeyPrefix)
      ==> r == ErrResponse(409, RecordAlreadyExists)
    ensures e.Public? && !HasPrefix(ErrorText(e), BodyParsePrefix) && !HasPrefix(ErrorText(e), DuplicateKeyPrefix)
      ==> r == ErrResponse(e.pe.Code(), e.pe.PublicMessage())
    ensures !e.Public? && !HasPrefix(ErrorText(e), BodyParsePrefix) && !HasPrefix(ErrorText(e), DuplicateKeyPrefix)
      ==> r == ErrResponse(500, InternalErrorMessage)
    ensures !e.Public? ==> IsFixedMessage(r.error) && r.error != RecordDoesNotExist
  {
    var text := ErrorText(e);
    if HasPrefix(text, BodyParsePrefix) then ErrResponse(400, ContentTypeRequired)
    else if HasPrefix(text, DuplicateKeyPrefix) then ErrResponse(409, RecordAlreadyExists)
    else if !e.Public? then ErrResponse(500, InternalErrorMessage)
    else ErrResponse(e.pe.Code(), e.pe.PublicMessage())
  }

  /**
   * The two error handlers answer every error alike except gorm's record-not-found
   * sentinel, which middleware.go reports as a 404 and server.go masks as a 500.
   */
  lemma ErrorHandlersDifferOnlyOnRecordNotFound(e: Error)
    ensures e != RecordNotFound ==> ErrorHandler(e) == Middleware.ErrorHandler(e)
    ensures e == RecordNotFound ==>
      ErrorHandler(e) == ErrResponse(500, InternalErrorMessage) &&
      Middleware.ErrorHandler(e) == ErrResponse(404, RecordDoesNotExist)
  {
    if e == RecordNotFound {
      assert RecordNotFoundText[0] == 'r' && BodyParsePrefix[0] == 'b' && DuplicateKeyPrefix[0] == 'p';
      assert !HasPrefix(ErrorText(e), BodyParsePrefix) && !HasPrefix(ErrorText(e), DuplicateKeyPrefix);
    }
  }

  /**
   * `handler`: runs a route function that returns an error; a non-nil error is handed
   * on to the error handler, a nil one ends the request.
   */
  function Handler(routeResult: Option<Error>): (f: Flow)
    ensures f.NextErr? <==> routeResult.Some?
    ensures f.NextErr? ==> f.err == routeResult.value
    ensures f != Next
  {
    match routeResult
    case Some(err) => NextErr(err)
    case None => Stop
  }

  /** A value passed to `panic`: an error, or any other value known by its `%v` rendering. */
  datatype PanicValue = ErrorValue(err: Error) | OtherValue(rendered: string)

  /**
   * `Recover`: after the rest of the chain has run, a recovered panic is turned into an
   * error (a non-error value through `fmt.Errorf("%v", r)`) and handed on; `None` means
   * no panic and nothing is handed on.
   */
  function Recover(panicked: Option<PanicValue>): (forwarded: Option<Error>)
    ensures forwarded.Some? <==> panicked.Some?
    ensures panicked.Some? && panicked.value.ErrorValue? ==> forwarded == Some(panicked.value.err)
    ensures panicked.Some? && panicked.value.OtherValue? ==>
      forwarded.value.Failure? && ErrorText(forwarded.value) == panicked.value.rendered
  {
    match panicked
    case None => None
    case Some(ErrorValue(err)) => Some(err)
    case Some(OtherValue(rendered)) => Some(Failure(rendered))
  }

  /**
   * A panic with a value that is not an error, whose rendering starts with neither
   * prefix, reaches the client as a masked 500.
   */
  lemma RecoveredPanicIsMasked(rendered: string)
    requires !HasPrefix(rendered, BodyParsePrefix) && !HasPrefix(rendered, DuplicateKeyPrefix)
    ensures ErrorHandler(Recover(Some(OtherValue(rendered))).value) == ErrResponse(500, InternalErrorMessage)
  {
  }

  const DefaultPort := 3000

  /** `Serve`: the configured port, or 3000 when none (zero) is configured. */
  function ServePort(configuredPort: int): (port: int)
    ensures port != 0
    ensures configuredPort != 0 ==> port == configuredPort
    ensures configuredPort == 0 ==> port == DefaultPort
  {
    if configuredPort != 0 then configuredPort else DefaultPort
  }
}

=== FILE: store.dfy ===
/**
 * The persistent state behind the handlers: the rows of the relational tables (users,
 * tokens, projects, images, jobs) and the objects of the S3 image bucket, together with
 * the three query shapes the gorm calls use: `Where(...).Take` (first matching row),
 * `Where(...).Find` (all matching rows) and `Delete(..., where)`.
 * Tables are kept in insertion order, which stands in for the unspecified order the
 * database returns rows in; timestamps are not modelled.
 */
module Store {
  import opened Wrappers
  import opened Uuids
  import opened Errors
  import opened GoStrings

  datatype User = User(id: Uuid, username: string)
  /** A `user_record` row: the user and the password column, stored as given. */
  datatype UserRecord = UserRecord(user: User, password: string)
  datatype Token = Token(id: Uuid, valid: bool, token: string, userId: Uuid)
  datatype Project = Project(id: Uuid, userId: Uuid, name: string, keywords: seq<string>)
  datatype Image = Image(id: Uuid, projectId: Uuid, url: string, labelsStuff: seq<string>, masksLabels: seq<string>)
  datatype Job = Job(id: Uuid, projectId: Uuid, status: string)
  /** An S3 object together with the attributes `PutObject` sets on it. */
  datatype Blob = Blob(content: seq<bv8>, contentType: string, publicRead: bool, cacheControl: string)

  /** The database: one sequence of rows per table. */
  class DB {
    var users: seq<UserRecord>
    var tokens: seq<Token>
    var projects: seq<Project>
    var images: seq<Image>
    var jobs: seq<Job>

    constructor ()
      ensures users == [] && tokens == [] && projects == [] && images == [] && jobs == []
    {
      users, tokens, projects, images, jobs := [], [], [], [], [];
    }
  }

  /** The image bucket: objects by key. */
  class Bucket {
    var objects: map<string, Blob>

    constructor ()
      ensures objects == map[]
    {
      objects := map[];
    }
  }

  /** An error reported by the driver for a broken unique constraint. */
  predicate IsDuplicateKey(e: Error) {
    e.Failure? && HasPrefix(ErrorText(e), DuplicateKeyPrefix)
  }

  /** The driver error for an insert that breaks a unique constraint. */
  function DuplicateKeyError(constraint: string): (e: Error)
    ensures IsDuplicateKey(e)
  {
    var text := DuplicateKeyPrefix + " \"" + constraint + "\"";
    assert text[..|DuplicateKeyPrefix|] == DuplicateKeyPrefix;
    Failure(text)
  }

  predicate AnyMatch<R>(rows: seq<R>, matches: R -> bool) {
    exists i | 0 <= i < |rows| :: matches(rows[i])
  }

  /** A match that is not the first row is a match of the rest. */
  lemma AnyMatchTail<R>(rows: seq<R>, matches: R -> bool)
    requires rows != [] && AnyMatch(rows, matches) && !matches(rows[0])
    ensures AnyMatch(rows[1..], matches)
  {
    var i :| 0 <= i < |rows| && matches(rows[i]);
    assert rows[1..][i - 1] == rows[i];
  }

  /** `Where(...).Take`: the first matching row in insertion order, if any. */
  function FirstMatch<R>(rows: seq<R>, matches: R -> bool): (r: Option<R>)
    ensures r.Some? <==> AnyMatch(rows, matches)
    ensures r.Some? ==> exists i | 0 <= i < |rows| :: rows[i] == r.value && matches(r.value) &&
                          forall j | 0 <= j < i :: !matches(rows[j])
  {
    if rows == [] then None
    else if matches(rows[0]) then Some(rows[0])
    else
      var r := FirstMatch(rows[1..], matches);
      assert r.Some? ==> exists i | 1 <= i < |rows| :: rows[i] == r.value && matches(r.value) &&
                           forall j | 0 <= j < i :: !matches(rows[j]) by {
        if r.Some? {
          var i :| 0 <= i < |rows[1..]| && rows[1..][i] == r.value && matches(r.value) &&
                   forall j | 0 <= j < i :: !matches(rows[1..][j]);
          assert rows[i + 1] == r.value;
          assert forall j | 0 <= j < i + 1 :: !matches(rows[j]) by {
            forall j | 0 <= j < i + 1 ensures !matches(rows[j]) {
              if j > 0 { assert rows[j] == rows[1..][j - 1]; }
            }
          }
        }
      }
      assert AnyMatch(rows[1..], matches) <==> AnyMatch(rows, matches) by {
        if AnyMatch(rows, matches) {
          var i :| 0 <= i < |rows| && matches(rows[i]);
          assert i > 0 && rows[1..][i - 1] == rows[i];
        }
        if AnyMatch(rows[1..], matches) {
          var i :| 0 <= i < |rows[1..]| && matches(rows[1..][i]);
          assert rows[i + 1] == rows[1..][i];
        }
      }
      r
  }

  /** `Where(...).Find`: every matching row, in insertion order. */
  function Filter<R(!new)>(rows: seq<R>, matches: R -> bool): (r: seq<R>)
    ensures forall x :: multiset(r)[x] == if matches(x) then multiset(rows)[x] else 0
    ensures forall x | x in r :: matches(x)
  {
    if rows == [] then []
    else
      var rest := Filter(rows[1..], matches);
      assert rows == [rows[0]] + rows[1..];
      if matches(rows[0]) then [rows[0]] + rest else rest
  }

  /** `Delete(..., where)`: the rows that do not match. */
  function RemoveMatching<R(!new)>(rows: seq<R>, matches: R -> bool): (r: seq<R>)
    ensures forall x :: multiset(r)[x] == if matches(x) then 0 else multiset(rows)[x]
    ensures forall x | x in r :: !matches(x)
  {
    Filter(rows, x => !matches(x))
  }
}

=== FILE: token_store.dfy ===
/**
 * pkg/model/token.go: issuing a token row and invalidating a user's valid rows. The
 * two together keep at most one valid token row per user.
 */
module TokenStore {
  import opened Wrappers
  import opened Uuids
  import opened Errors
  import opened Store

  predicate HasTokenId(rows: seq<Token>, id: Uuid) { AnyMatch(rows, (t: Token) => t.id == id) }

  /**
   * The rows after `UPDATE token SET valid = false WHERE user_record = userId AND valid =
   * true`: the valid rows of that user turn invalid, every other row stays as it was.
   */
  function Invalidated(rows: seq<Token>, userId: Uuid): (r: seq<Token>)
    ensures |r| == |rows|
    ensures forall i | 0 <= i < |rows| :: rows[i].userId == userId && rows[i].valid ==> r[i] == rows[i].(valid := false)
    ensures forall i | 0 <= i < |rows| :: !(rows[i].userId == userId && rows[i].valid) ==> r[i] == rows[i]
  {
    if rows == [] then []
    else
      var t := rows[0];
      [if t.userId == userId && t.valid then t.(valid := false) else t] + Invalidated(rows[1..], userId)
  }

  /** `InvalidateAllTokens`. */
  method InvalidateAllTokens(db: DB, userId: Uuid, fault: Option<Error>) returns (err: Option<Error>)
    modifies db`tokens
    ensures err == fault
    ensures db.tokens == if fault.None? then Invalidated(old(db.tokens), userId) else old(db.tokens)
  {
    err := fault;
    if fault.None? {
      db.tokens := Invalidated(db.tokens, userId);
    }
  }

  /** `CreateToken`: inserts one valid row holding the user and the token string. */
  method CreateToken(db: DB, userId: Uuid, token: string, newId: Uuid, fault: Option<Error>) returns (err: Option<Error>)
    modifies db`tokens
    ensures err.None? <==> fault.None? && !HasTokenId(old(db.tokens), newId)
    ensures fault.Some? ==> err == fault
    ensures fault.None? && err.Some? ==> err == Some(DuplicateKeyError("token_pkey"))
    ensures db.tokens == if err.None? then old(db.tokens) + [Token(newId, true, token, userId)] else old(db.tokens)
  {
    if fault.Some? {
      err := fault;
    } else if HasTokenId(db.tokens, newId) {
      err := Some(DuplicateKeyError("token_pkey"));
    } else {
      db.tokens := db.tokens + [Token(newId, true, token, userId)];
      err := None;
    }
  }

  /** The number of valid rows of a user. */
  function ValidCount(rows: seq<Token>, userId: Uuid): nat {
    if rows == [] then 0
    else (if rows[0].userId == userId && rows[0].valid then 1 else 0) + ValidCount(rows[1..], userId)
  }

  /** The table invariant: no user has two valid token rows. */
  predicate AtMostOneValidEach(rows: seq<Token>) {
    forall i, j | 0 <= i < j < |rows| :: rows[i].valid && rows[j].valid ==> rows[i].userId != rows[j].userId
  }

  /** Invalidating twice is the same as invalidating once. */
  lemma {:induction false} InvalidateIdempotent(rows: seq<Token>, userId: Uuid)
    ensures Invalidated(Invalidated(rows, userId), userId) == Invalidated(rows, userId)
  {
    var once := Invalidated(rows, userId);
    var twice := Invalidated(once, userId);
    assert |twice| == |once|;
    forall i | 0 <= i < |rows| ensures twice[i] == once[i] {
    }
  }

  /** After invalidation the user has no valid row left. */
  lemma {:induction false} InvalidatedHasNoValid(rows: seq<Token>, userId: Uuid)
    ensures ValidCount(Invalidated(rows, userId), userId) == 0
  {
    if rows != [] {
      InvalidatedHasNoValid(rows[1..], userId);
      assert Invalidated(rows, userId)[1..] == Invalidated(rows[1..], userId);
    }
  }

  lemma {:induction false} ValidCountAppend(rows: seq<Token>, t: Token, userId: Uuid)
    ensures ValidCount(rows + [t], userId) == ValidCount(rows, userId) + (if t.userId == userId && t.valid then 1 else 0)
  {
    if rows == [] {
      assert [t][1..] == [];
    } else {
      assert (rows + [t])[1..] == rows[1..] + [t];
      ValidCountAppend(rows[1..], t, userId);
    }
  }

  /**
   * Invalidate-all followed by create leaves the user exactly one valid row, the new one,
   * which holds the issued token.
   */
  lemma RotationLeavesOnlyNewTokenValid(rows: seq<Token>, userId: Uuid, newId: Uuid, token: string)
    ensures var after := Invalidated(rows, userId) + [Token(newId, true, token, userId)];
      ValidCount(after, userId) == 1 &&
      forall i | 0 <= i < |after| :: after[i].userId == userId && after[i].valid ==>
        i == |after| - 1 && after[i].token == token
  {
    var inv := Invalidated(rows, userId);
    InvalidatedHasNoValid(rows, userId);
    ValidCountAppend(inv, Token(newId, true, token, userId), userId);
  }

  /** Rotating one user's token keeps the one-valid-row-per-user invariant for everybody. */
  lemma RotationPreservesInvariant(rows: seq<Token>, userId: Uuid, newId: Uuid, token: string)
    requires AtMostOneValidEach(rows)
    ensures AtMostOneValidEach(Invalidated(rows, userId) + [Token(newId, true, token, userId)])
  {
    var inv := Invalidated(rows, userId);
    var after := inv + [Token(newId, true, token, userId)];
    forall i, j | 0 <= i < j < |after| && after[i].valid && after[j].valid
      ensures after[i].userId != after[j].userId
    {
      if j == |inv| {
        assert after[i] == inv[i];
      } else {
        assert after[i] == inv[i] && after[j] == inv[j];
      }
    }
  }
}

=== FILE: user_store.dfy ===
/** pkg/model/user.go: the user queries and the password check. */
module UserStore {
  import opened Wrappers
  import opened Uuids
  import opened Errors
  import opened Store

  predicate HasUserId(rows: seq<UserRecord>, id: Uuid) { AnyMatch(rows, (r: UserRecord) => r.user.id == id) }

  predicate HasUsername(rows: seq<UserRecord>, name: string) {
    AnyMatch(rows, (r: UserRecord) => r.user.username == name)
  }

  /**
   * `CreateUser`: inserts the user with the password exactly as passed (hashing is the
   * caller's job) and, on success, writes the generated id back into the caller's user.
   * The id and the username are both unique columns.
   */
  method CreateUser(db: DB, user: User, password: string, newId: Uuid, fault: Option<Error>)
    returns (updated: User, err: Option<Error>)
    modifies db`users
    ensures err.None? <==> fault.None? && !HasUserId(old(db.users), newId) && !HasUsername(old(db.users), user.username)
    ensures fault.Some? ==> err == fault
    ensures fault.None? && err.Some? ==> IsDuplicateKey(err.value)
    ensures updated == if err.None? then user.(id := newId) else user
    ensures db.users == if err.None? then old(db.users) + [UserRecord(updated, password)] else old(db.users)
  {
    updated := user;
    if fault.Some? {
      err := fault;
    } else if HasUserId(db.users, newId) {
      err := Some(DuplicateKeyError("user_record_pkey"));
    } else if HasUsername(db.users, user.username) {
      err := Some(DuplicateKeyError("user_record_username_key"));
    } else {
      updated := user.(id := newId);
      db.users := db.users + [UserRecord(updated, password)];
      err := None;
    }
  }

  /** `FindUserByUsername`: the user with that name, or record-not-found. */
  function FindUserByUsername(rows: seq<UserRecord>, username: string, fault: Option<Error>): (r: Result<User, Error>)
    ensures fault.Some? ==> r == Err(fault.value)
    ensures fault.None? ==> (r.Ok? <==> HasUsername(rows, username))
    ensures fault.None? && r.Err? ==> r.error == RecordNotFound
    ensures r.Ok? ==> r.value.username == username && exists row | row in rows :: row.user == r.value
  {
    if fault.Some? then Err(fault.value)
    else match FirstMatch(rows, (r: UserRecord) => r.user.username == username)
      case Some(row) => Ok(row.user)
      case None => Err(RecordNotFound)
  }

  /** `FindUserByID`: the user with that id, or record-not-found. */
  function FindUserByID(rows: seq<UserRecord>, id: Uuid, fault: Option<Error>): (r: Result<User, Error>)
    ensures fault.Some? ==> r == Err(fault.value)
    ensures fault.None? ==> (r.Ok? <==> HasUserId(rows, id))
    ensures fault.None? && r.Err? ==> r.error == RecordNotFound
    ensures r.Ok? ==> r.value.id == id && exists row | row in rows :: row.user == r.value
  {
    if fault.Some? then Err(fault.value)
    else match FirstMatch(rows, (r: UserRecord) => r.user.id == id)
      case Some(row) => Ok(row.user)
      case None => Err(RecordNotFound)
  }

  /**
   * `(*User).VerifyPassword`: reads the stored password column of the user's row and
   * compares it with `compareHash` (bcrypt's CompareHashAndPassword, taken as given).
   * The boolean is true exactly when the comparison reports no error; a missing row
   * gives the lookup error and false.
   */
  function VerifyPassword(rows: seq<UserRecord>, user: User, password: string, fault: Option<Error>,
                          compareHash: (string, string) -> Option<Error>): (r: (Option<Error>, bool))
    ensures r.1 <==> r.0.None?
    ensures fault.Some? ==> r == (fault, false)
    ensures fault.None? && !HasUserId(rows, user.id) ==> r == (Some(RecordNotFound), false)
    ensures fault.None? && HasUserId(rows, user.id) ==>
      exists i | 0 <= i < |rows| ::
        rows[i].user.id == user.id && (forall j | 0 <= j < i :: rows[j].user.id != user.id) &&
        r == (compareHash(rows[i].password, password), compareHash(rows[i].password, password).None?)
  {
    if fault.Some? then (fault, false)
    else match FirstMatch(rows, (r: UserRecord) => r.user.id == user.id)
      case None => (Some(RecordNotFound), false)
      case Some(row) =>
        var err := compareHash(row.password, password);
        (err, err.None?)
  }

  /**
   * The password check of a freshly created user compares against the password column
   * stored by `CreateUser`: it accepts exactly when `compareHash` accepts that value.
   */
  lemma {:induction false} CreatedUserPasswordChecked(rows: seq<UserRecord>, user: User, stored: string, password: string,
                                                      compareHash: (string, string) -> Option<Error>)
    requires !HasUserId(rows, user.id)
    ensures VerifyPassword(rows + [UserRecord(user, stored)], user, password, None, compareHash) ==
            (compareHash(stored, password), compareHash(stored, password).None?)
  {
    var all := rows + [UserRecord(user, stored)];
    assert all[|rows|].user.id == user.id;
    var found := FirstMatch(all, (r: UserRecord) => r.user.id == user.id);
    var i :| 0 <= i < |all| && all[i] == found.value && found.value.user.id == user.id;
    assert i == |rows|;
  }

  /** A registered user is found by name and by id after `CreateUser`. */
  lemma {:induction false} CreatedUserIsFound(rows: seq<UserRecord>, user: User, password: string)
    requires !HasUserId(rows, user.id) && !HasUsername(rows, user.username)
    ensures FindUserByID(rows + [UserRecord(user, password)], user.id, None) == Ok(user)
    ensures FindUserByUsername(rows + [UserRecord(user, password)], user.username, None) == Ok(user)
  {
    var all := rows + [UserRecord(user, password)];
    assert all[|rows|].user == user;
    var r1 := FirstMatch(all, (r: UserRecord) => r.user.id == user.id);
    var i :| 0 <= i < |all| && all[i] == r1.value && r1.value.user.id == user.id;
    assert i == |rows|;
    var r2 := FirstMatch(all, (r: UserRecord) => r.user.username == user.username);
    var k :| 0 <= k < |all| && all[k] == r2.value && r2.value.user.username == user.username;
    assert k == |rows|;
  }
}

=== FILE: uuids.dfy ===
/**
 * The textual form of a UUID, as produced by `uuid.UUID.String()` and accepted by
 * `uuid.FromString` for the path parameters `user_id`, `project_id` and `image_id`.
 * A UUID is kept as its canonical text: 36 characters, lower-case hexadecimal digits
 * with hyphens at offsets 8, 13, 18 and 23.
 */
module Uuids {
  import opened Wrappers

  datatype Uuid = Uuid(text: string) {
    /** `uuid.UUID.String()`: the canonical text, which `FromString` reads back as this UUID. */
    function String(): (s: string)
      ensures Uuid(s) == this
      ensures Canonical(text) ==> FromString(s) == Some(this)
    {
      if Canonical(text) then FromStringOfString(this); text else text
    }
  }

  const UuidTextLength := 36

  predicate IsHyphenOffset(i: int) { i == 8 || i == 13 || i == 18 || i == 23 }

  predicate IsHexDigit(c: char) { '0' <= c <= '9' || 'a' <= c <= 'f' || 'A' <= c <= 'F' }

  predicate IsLowerHexDigit(c: char) { '0' <= c <= '9' || 'a' <= c <= 'f' }

  /** The 8-4-4-4-12 spelling, hexadecimal digits of either case. */
  predicate WellFormed(s: string) {
    |s| == UuidTextLength &&
    forall i | 0 <= i < |s| :: if IsHyphenOffset(i) then s[i] == '-' else IsHexDigit(s[i])
  }

  /** The spelling `String()` produces. */
  predicate Canonical(s: string) {
    |s| == UuidTextLength &&
    forall i | 0 <= i < |s| :: if IsHyphenOffset(i) then s[i] == '-' else IsLowerHexDigit(s[i])
  }

  function ToLower(c: char): char {
    if 'A' <= c <= 'Z' then (c as int - 'A' as int + 'a' as int) as char else c
  }

  /**
   * `uuid.FromString` restricted to the canonical layout: a well-formed text parses to
   * the UUID whose canonical text is its lower-cased copy; anything else is rejected.
   */
  function FromString(s: string): (r: Option<Uuid>)
    ensures r.Some? <==> WellFormed(s)
    ensures r.Some? ==> Canonical(r.value.text) && |r.value.text| == |s|
    ensures r.Some? ==> forall i | 0 <= i < |s| :: r.value.text[i] == ToLower(s[i])
  {
    if WellFormed(s) then Some(Uuid(seq(|s|, i requires 0 <= i < |s| => ToLower(s[i])))) else None
  }

  /** Printing a UUID and parsing the text back gives the same UUID. */
  lemma FromStringOfString(u: Uuid)
    requires Canonical(u.text)
    ensures FromString(u.text) == Some(u)
  {
    var s := u.text;
    assert WellFormed(s) by {
      forall i | 0 <= i < |s| ensures if IsHyphenOffset(i) then s[i] == '-' else IsHexDigit(s[i]) {
        assert if IsHyphenOffset(i) then s[i] == '-' else IsLowerHexDigit(s[i]);
      }
    }
    var t := FromString(s).value.text;
    forall i | 0 <= i < |s| ensures t[i] == s[i] {
      assert if IsHyphenOffset(i) then s[i] == '-' else IsLowerHexDigit(s[i]);
    }
    assert t == s;
  }
}

=== FILE: views.dfy ===
/**
 * The JSON views of pkg/server/projects.go: `projectHTTPStruct` copies a project row,
 * and `imageHTTPStruct` merges an image's two label lists through a set, so that the
 * view's labels are their union without repeats, in no particular order.
 */
module Views {
  import opened Uuids
  import opened Store

  datatype ProjectView = ProjectView(id: string, userId: string, name: string, keywords: seq<string>,
                                     labels: seq<string>, status: string)

  datatype ImageView = ImageView(id: string, url: string, projectId: string, labels: seq<string>)

  /** `projectHTTPStruct`: the row's fields; no labels and an unset status. */
  function ProjectHTTPStruct(p: Project): (v: ProjectView)
    ensures v.labels == [] && v.status == ""
  {
    ProjectView(p.id.String(), p.userId.String(), p.name, p.keywords, [], "")
  }

  /** The view identifies its row: two rows with the same view are the same row. */
  lemma ProjectViewDeterminesRow(p: Project, q: Project)
    requires ProjectHTTPStruct(p) == ProjectHTTPStruct(q)
    ensures p == q
  {
    assert p.id.text == ProjectHTTPStruct(p).id;
    assert p.userId.text == ProjectHTTPStruct(p).userId;
  }

  /** The views of a list of projects, in list order, as `getProjects` builds them. */
  method ProjectHTTPStructs(projects: seq<Project>) returns (views: seq<ProjectView>)
    ensures |views| == |projects|
    ensures forall k | 0 <= k < |projects| :: views[k] == ProjectHTTPStruct(projects[k])
  {
    views := [];
    for k := 0 to |projects|
      invariant |views| == k
      invariant forall j | 0 <= j < k :: views[j] == ProjectHTTPStruct(projects[j])
    {
      views := views + [ProjectHTTPStruct(projects[k])];
    }
  }

  predicate NoDuplicates(s: seq<string>) {
    forall i, j | 0 <= i < j < |s| :: s[i] != s[j]
  }

  /** The labels a view may show for an image: those of its two label columns. */
  function LabelSet(img: Image): set<string> {
    (set l | l in img.masksLabels) + (set l | l in img.labelsStuff)
  }

  /** A view shows an image: its id, URL and project, and each of its labels exactly once. */
  predicate Shows(v: ImageView, img: Image) {
    v.id == img.id.String() && v.url == img.url && v.projectId == img.projectId.String() &&
    (set l | l in v.labels) == LabelSet(img) && NoDuplicates(v.labels)
  }

  /** Adds every element of `s` to `acc`, one at a time. */
  method AddAll(acc: set<string>, s: seq<string>) returns (r: set<string>)
    ensures r == acc + set l | l in s
  {
    r := acc;
    for i := 0 to |s|
      invariant r == acc + set l | l in s[..i]
    {
      assert s[..i + 1] == s[..i] + [s[i]];
      r := r + {s[i]};
    }
    assert s[..|s|] == s;
  }

  /** Lists the members of a set, each once, in an arbitrary order. */
  method Members(unique: set<string>) returns (labels: seq<string>)
    ensures (set l | l in labels) == unique
    ensures NoDuplicates(labels)
  {
    labels := [];
    var left := unique;
    while left != {}
      invariant left <= unique
      invariant (set l | l in labels) == unique - left
      invariant NoDuplicates(labels)
      decreases |left|
    {
      var l :| l in left;
      assert (set x | x in labels + [l]) == (set x | x in labels) + {l};
      labels := labels + [l];
      left := left - {l};
    }
  }

  /**
   * `imageHTTPStruct`: adds the mask labels and then the stuff labels to a set, and lists
   * the set's members.
   */
  method ImageHTTPStruct(img: Image) returns (v: ImageView)
    ensures Shows(v, img)
  {
    var unique := AddAll({}, img.masksLabels);
    unique := AddAll(unique, img.labelsStuff);
    var labels := Members(unique);
    v := ImageView(img.id.String(), img.url, img.projectId.String(), labels);
  }

  /** The views of a list of images, in list order, as the handlers' loops build them. */
  method ImageHTTPStructs(images: seq<Image>) returns (views: seq<ImageView>)
    ensures |views| == |images|
    ensures forall k | 0 <= k < |images| :: Shows(views[k], images[k])
  {
    views := [];
    for k := 0 to |images|
      invariant |views| == k
      invariant forall j | 0 <= j < k :: Shows(views[j], images[j])
    {
      var v := ImageHTTPStruct(images[k]);
      views := views + [v];
    }
  }
}

=== FILE: wrappers.dfy ===
/** Option and Result, the two failure-carrying shapes the model passes around. */
module Wrappers {

  datatype Option<+T> = None | Some(value: T)

  /** A Go `(value, error)` pair where exactly one side is meaningful. */
  datatype Result<+T, +E> = Ok(value: T) | Err(error: E)
}
